=== FILE: README.md ===
# BPEL layouting, modelled in Dafny

A model of the BPEL layout plugin of the ORYX process editor,
`ORYX.Plugins.BPELLayouting` in `editor/client/scripts/Plugins/bpelLayout.js`.
The plugin reacts to five layout events, each raised for one container shape:

- **Composite layout.** The container's children are split into four handler
  slots and the ordinary children. The slots are the first event-handlers,
  fault-handlers, compensation-handler and termination-handler child. The
  ordinary children (the main activity) are stacked top-down. A child that
  moves goes to x = 30; one already at its stacked height keeps its x. The
  present slots are stacked in a column at x = 60 + the widest ordinary
  child's width, which can overlap a child that did not move, and, under the
  condition the code tests, resized to one common width.
- **Vertical and horizontal layouts.** All children are sorted by the axis
  coordinate. The child with the `lastChild` role is pushed behind the current
  last one. The children are re-sorted and packed along the axis with a margin
  of 30.
- **Single-child layout.** The first child moves to (30, 30).
- **Auto-resize layout.** Every child's upper-left corner is clamped to at
  least (30, 30).

Every event first checks the container's `oryx-autolayout` property.
Every event that lays its container out ends with `autoResizeLayout`, which
fits the container around its children: a `flow` only grows, and any other
container is set to exactly the children's extent plus the margin.

The model is purely functional:

- A `Node` carries its resolved stencil kind, its `lastChild` role flag, its
  bounds, its `oryx-autolayout` property value and its direct children.
- A layout returns the container with new bounds for itself and its children.
- The child list keeps its order, as the in-place mutation of `bounds` in the
  source does.
- Groups of siblings are handled as lists of positions into the child list.

Modules:

| module | file | content |
|---|---|---|
| `Seqs` | `seqs.dfy` | options, first match, the running maximum, distinct position lists |
| `Sorting` | `sorting.dfy` | the stable sort standing in for `sortBy`, uniqueness of sorted orders, `sortBy(...).last()` |
| `Geometry` | `geometry.dfy` | rectangles, the margin, `moveTo` |
| `Shapes` | `shapes.dfy` | nodes, the auto-layout test, reading and writing bounds of a group |
| `Partition` | `partition.dfy` | the handler slots and the ordinary children |
| `Packing` | `packing.dfy` | the packing loop shared by all linear arrangements |
| `Arrange` | `arrange.dfy` | sort, `moveSomeElementToLastPosition`, sort again, pack |
| `Column` | `column.dfy` | `getRightestBoundOfAllChildren` and the handler column |
| `Fit` | `fit.dfy` | `autoResizeLayout` and the margin clamp |
| `Layout` | `layout.dfy` | the five event handlers and the whole-handler properties |

## Model

| member | source | states |
|---|---|---|
| Layout.Handle | editor/client/scripts/Plugins/bpelLayout.js:36-40 | dispatches each event to its handler and keeps the number of children; its behaviour is stated by `Layout.HandleSkips`, `Layout.HandleOnlyMovesChildren`, `Layout.HandleEncloses` and `Layout.HandleIdempotent` |
| Shapes.AutoLayoutRequired | editor/client/scripts/Plugins/bpelLayout.js:483-497 | layout is refused exactly when `oryx-autolayout` is `false`, `0` or the empty string; an absent or null property and every other truthy value enable it |
| Layout.HandleSkips | editor/client/scripts/Plugins/bpelLayout.js:50-63 | whatever the event, a container with layout switched off, or with no children, is returned unchanged (`resetBounds` does nothing) |
| Layout.HandleOnlyMovesChildren | editor/client/scripts/Plugins/bpelLayout.js:50-398 | whatever the event, the container keeps its kind, role and property, keeps the number of children, and each child keeps everything but its bounds |
| Layout.HandleEncloses | editor/client/scripts/Plugins/bpelLayout.js:403-441 | after any event on a container that requires layout and has children, every child's right and bottom edge lies at least 30 inside the container's width and height |
| Layout.HandleIdempotent | editor/client/scripts/Plugins/bpelLayout.js:50-398 | handling the same event twice gives the same shape as handling it once, when no child has a negative size and at most one declares `lastChild` |
| Seqs.FirstTrue | editor/client/scripts/Plugins/bpelLayout.js:65-79 | `find` yields the first matching position, with no match before it, and nothing only when no element matches |
| Seqs.FoldMax | editor/client/scripts/Plugins/bpelLayout.js:124-127 | the running maximum is at least the start value and every element, and equals the start value or one of the elements |
| Sorting.SortBy | editor/client/scripts/Plugins/bpelLayout.js:93-95 | the sorted list is a rearrangement of the input, of the same length, ordered by non-decreasing key |
| Sorting.SortTwo | editor/client/scripts/Plugins/bpelLayout.js:93-95 | two elements with different keys come out in key order |
| Sorting.SortedUnique | editor/client/scripts/Plugins/bpelLayout.js:100-105 | when keys are pairwise distinct along a list, that list is the only sorted arrangement of its elements, so the tie order of `sortBy` cannot matter |
| Sorting.SortPutsStrictMaximumLast | editor/client/scripts/Plugins/bpelLayout.js:100-105 | sorting puts the one element whose key is strictly larger than all others in the last position |
| Sorting.LastKey | editor/client/scripts/Plugins/bpelLayout.js:240-244 | the key of the last element after sorting is at least every key and equals one of them |
| Geometry.MoveToCharacterised | editor/client/scripts/Plugins/bpelLayout.js:120-122 | moving a rectangle to where it already is changes nothing, moving twice to one point is moving once, and a move keeps a well-formed rectangle well formed |
| Partition.FindSlots | editor/client/scripts/Plugins/bpelLayout.js:65-79 | each slot holds the first child of its kind, and is empty only when no child has that kind |
| Partition.Ordinary | editor/client/scripts/Plugins/bpelLayout.js:81-84 | the ordinary children are exactly the children that are none of the four found slots, each listed once |
| Partition.PartitionIsExact | editor/client/scripts/Plugins/bpelLayout.js:65-84 | every child belongs to exactly one of the five groups: one of the four slots or the ordinary children |
| Partition.SecondHandlerIsOrdinary | editor/client/scripts/Plugins/bpelLayout.js:65-84 | a second child of a handler kind is not a slot and is arranged with the ordinary children |
| Partition.FindSlotsByKind | editor/client/scripts/Plugins/bpelLayout.js:65-79 | the slots depend only on the children's kinds, so moving children never changes them |
| Packing.PackRects | editor/client/scripts/Plugins/bpelLayout.js:278-291 | each rectangle starts 30 past the end of the previous one, the first at 30, and keeps its size; one whose key already matched is not moved, any other has its cross coordinate set to 30 |
| Packing.PackRectsIdempotent | editor/client/scripts/Plugins/bpelLayout.js:329-343 | packing an already packed run changes nothing |
| Arrange.MoveLastChildToEnd | editor/client/scripts/Plugins/bpelLayout.js:510-526 | `moveSomeElementToLastPosition`: keeps the number of nodes and changes nothing when it reports no move; stated fully by `Arrange.MoveLastChildToEndSpec` |
| Arrange.MoveLastChildToEndSpec | editor/client/scripts/Plugins/bpelLayout.js:510-526 | the step reports a change exactly when a `lastChild` node sits before the last position; then only the first such node moves, one unit right of and below the last node's corner, keeping its size |
| Arrange.NudgedKeyIsStrictMaximum | editor/client/scripts/Plugins/bpelLayout.js:517-523 | in a sorted group, the moved node's key becomes strictly larger than every other node's key, on either axis |
| Arrange.Resort | editor/client/scripts/Plugins/bpelLayout.js:262-276 | the final order is a rearrangement of the group, sorted by the keys after the `lastChild` step |
| Arrange.ResortMovesOnlyLastChild | editor/client/scripts/Plugins/bpelLayout.js:268-276 | the `lastChild` step changes only bounds, keeps sizes, and changes only a group node that declares `lastChild` |
| Arrange.ResortPutsLastChildLast | editor/client/scripts/Plugins/bpelLayout.js:262-276 | when exactly one node of the group declares `lastChild`, it comes last in the final order |
| Arrange.PackGroupFrame | editor/client/scripts/Plugins/bpelLayout.js:278-291 | packing changes only bounds of the group's nodes and never their sizes; a node whose key already matched keeps its bounds |
| Arrange.ArrangeGroup | editor/client/scripts/Plugins/bpelLayout.js:262-291 | the packed order is a rearrangement of the group and the group is packed along the axis in it; see also `Arrange.ArrangeGroupFrame` and `Arrange.ArrangeGroupIdempotent` |
| Arrange.ArrangeGroupFrame | editor/client/scripts/Plugins/bpelLayout.js:262-291 | arranging changes only bounds of the group's nodes and never sizes; a moved non-`lastChild` node has its cross coordinate at 30, an unmoved one is untouched |
| Arrange.PackedKeysIncrease | editor/client/scripts/Plugins/bpelLayout.js:278-291 | along a packed order of well-formed nodes the keys strictly increase |
| Arrange.ArrangeGroupLastChildLast | editor/client/scripts/Plugins/bpelLayout.js:262-291 | the only `lastChild` node of a well-formed group ends strictly after every other node along the axis |
| Arrange.ArrangeGroupLastChildAtEnd | editor/client/scripts/Plugins/bpelLayout.js:262-291 | with at most one `lastChild` node, no `lastChild` node precedes the last position of the packed order |
| Arrange.ArrangeGroupIdempotent | editor/client/scripts/Plugins/bpelLayout.js:262-291 | arranging a well-formed group with at most one `lastChild` node a second time changes nothing |
| Arrange.TwoLastChildrenSwap | editor/client/scripts/Plugins/bpelLayout.js:262-291 | two `lastChild` children 50 high, at y = 30 and y = 110, trade places on every vertical arrangement, so with more than one `lastChild` node arranging twice is not arranging once |
| Column.RightmostChildBound | editor/client/scripts/Plugins/bpelLayout.js:230-245 | the largest right edge among a slot's children, attained by one of them; 130 when the slot has none |
| Column.ChildlessSlotMeasures160 | editor/client/scripts/Plugins/bpelLayout.js:234-237 | a slot without children asks for width 160, so a column ending in one is always resized |
| Column.ColumnWidthIsLargest | editor/client/scripts/Plugins/bpelLayout.js:142-180 | the common width is the largest width any present slot asks for, and one slot asks for exactly it |
| Column.ColumnRects | editor/client/scripts/Plugins/bpelLayout.js:137-222 | every slot moves to the given left edge and keeps its height; the first is at 30, each next one 10 below the previous; widths are all the common width when the last slot asks for a positive width, and unchanged otherwise |
| Column.ColumnAligned | editor/client/scripts/Plugins/bpelLayout.js:182-222 | after resizing, all present slots have one width, no smaller than any slot asks for and equal to what one asks for |
| Column.HandlerColumn | editor/client/scripts/Plugins/bpelLayout.js:130-222 | the column writes the slots' new bounds back and leaves every other child as it was; the bounds are stated by `Column.ColumnRects`, and `Column.HandlerColumnIdempotent` states the column is stable |
| Column.HandlerColumnIdempotent | editor/client/scripts/Plugins/bpelLayout.js:137-222 | stacking and resizing the column again changes nothing |
| Fit.RightBound | editor/client/scripts/Plugins/bpelLayout.js:409-413 | the right bound is at least every child's right edge and equals one of them |
| Fit.LowerBound | editor/client/scripts/Plugins/bpelLayout.js:415-419 | the lower bound is at least every child's bottom edge and equals one of them |
| Fit.FitBounds | editor/client/scripts/Plugins/bpelLayout.js:403-441 | only the container's bounds change, not at all without children; its corner stays; it encloses every child with 30 to spare; a non-flow container fits exactly, a flow never shrinks and grows only to the exact fit |
| Fit.FitBoundsIdempotent | editor/client/scripts/Plugins/bpelLayout.js:403-441 | fitting a fitted container changes nothing |
| Fit.FlowGrowOnly | editor/client/scripts/Plugins/bpelLayout.js:424-434 | a flow already large enough for its children keeps its bounds |
| Fit.ClampToMargin | editor/client/scripts/Plugins/bpelLayout.js:383-394 | the corner ends at least at (30, 30), each coordinate below 30 set to 30 and every other kept, with the size unchanged |
| Fit.ClampIdempotent | editor/client/scripts/Plugins/bpelLayout.js:383-394 | clamping twice is clamping once, and a corner already clear of the margin is not moved |
| Layout.LayoutLinear | editor/client/scripts/Plugins/bpelLayout.js:247-296 | only the children and the container's bounds change, and the children are packed along the axis in the arranged order |
| Layout.LinearOrderCovers | editor/client/scripts/Plugins/bpelLayout.js:262-276 | the packing order lists every child exactly once |
| Layout.LayoutLinearFrame | editor/client/scripts/Plugins/bpelLayout.js:278-291 | a linear layout changes only the children's positions, never their sizes or other fields |
| Layout.LayoutLinearLastChildLast | editor/client/scripts/Plugins/bpelLayout.js:268-276 | the only child declaring `lastChild` ends strictly after all its siblings along the axis |
| Layout.LayoutLinearIdempotent | editor/client/scripts/Plugins/bpelLayout.js:298-348 | a second vertical or horizontal layout changes nothing, for well-formed children with at most one `lastChild` |
| Layout.LayoutSingleChild | editor/client/scripts/Plugins/bpelLayout.js:352-372 | the first child's corner is at (30, 30) with its size kept, every other child is untouched, only bounds change |
| Layout.LayoutSingleChildIdempotent | editor/client/scripts/Plugins/bpelLayout.js:367-369 | a second single-child layout changes nothing |
| Layout.LayoutAutoResize | editor/client/scripts/Plugins/bpelLayout.js:374-398 | every child's corner ends at least at (30, 30) with its size kept, and a child already clear of the margin is untouched |
| Layout.LayoutAutoResizeIdempotent | editor/client/scripts/Plugins/bpelLayout.js:383-397 | a second auto-resize layout changes nothing |
| Layout.HandlerLeft | editor/client/scripts/Plugins/bpelLayout.js:107-130 | the handlers' left edge is at least 60 and a margin either side of every ordinary child's width, and is 60 or exactly that for one child |
| Layout.LayoutComposite | editor/client/scripts/Plugins/bpelLayout.js:65-224 | only the children and the container's bounds change; the children are those of the composite layout, stated by the `Layout.Composite*` rows below |
| Layout.CompositeGroups | editor/client/scripts/Plugins/bpelLayout.js:65-84 | the arranged group is exactly the children that are not slots, and the column is exactly the slots |
| Layout.CompositeOrdinaryPacked | editor/client/scripts/Plugins/bpelLayout.js:89-128 | the ordinary children are packed top-down from 30 with gaps of 30 |
| Layout.CompositeLastChildLast | editor/client/scripts/Plugins/bpelLayout.js:97-105 | the only ordinary child declaring `lastChild` ends below every other ordinary child |
| Layout.CompositeHandlersClearOfOrdinary | editor/client/scripts/Plugins/bpelLayout.js:130-173 | every present slot's left edge is at least a margin either side of every ordinary child's width |
| Layout.SlotCanOverlapUnmovedChild | editor/client/scripts/Plugins/bpelLayout.js:117-130 | a child at (200, 30), 100 wide, is already at its stacked height and is not moved, while a childless event-handlers slot goes to x = 160 with width 160, overlapping it: the column clears the children's widths, not their right edges |
| Layout.CompositeHandlersStacked | editor/client/scripts/Plugins/bpelLayout.js:138-173 | the present slots are stacked in the order event, fault, compensation, termination, the first at 30, each next 10 below the previous |
| Layout.CompositeHandlersKeepHeight | editor/client/scripts/Plugins/bpelLayout.js:182-222 | every present slot keeps its height |
| Layout.CompositeHandlersAligned | editor/client/scripts/Plugins/bpelLayout.js:182-222 | when the last present slot asks for a positive width, every present slot has the widest requested width |
| Layout.CompositeChildrenShapes | editor/client/scripts/Plugins/bpelLayout.js:65-224 | the composite layout changes only the children's bounds |
| Layout.LayoutCompositeIdempotent | editor/client/scripts/Plugins/bpelLayout.js:50-228 | a second composite layout changes nothing, when the ordinary children are well formed and at most one declares `lastChild` |

## Left out

- Event registration (lines 33-41) and the editor facade are not modelled. `Layout.Handle` dispatches on a `LayoutEvent` value instead.
- Stencil lookups are not modelled. `getStencil().id()` against the namespace is resolved into `Node.kind`, and the `roles()` search for `lastChild` into `Node.lastChild`.
- Coordinates are integers. The editor's floating-point coordinates, and any rounding in `Bounds`, are not modelled.
- Numeric `oryx-autolayout` values are integers (`PropValue.Number`). A NaN value, which is falsy, and a fractional value such as 0.5, which is truthy, are not modelled.
- `Bounds.set` and `Bounds.moveTo` are taken to assign exactly the given corners. Their change notifications and the relayouts those cause in the editor are not modelled.
- `sortBy` is modelled as a stable insertion sort. Prototype's tie order for equal keys is not reproduced. Every property above that relates two layouts depends on strictly increasing keys, so it holds whatever the tie order (`Sorting.SortedUnique`).
- `resetBounds` (lines 443-461) has its whole body commented out. It is modelled as doing nothing.
- `isHandlers` (lines 463-481) is called only from that commented-out body, so it is not modelled.
- `moveSomeElementToLastPosition` writes an undeclared global, `ulOfCurrentLastChild` (line 522). The leaked global is not modelled; only its use inside the function is.
- `getChildShapes(false)` is assumed to return an array. The `!elements` branches, which handle a missing array, collapse into the empty-list case.
- Layout.HandleIdempotent: stated only for children that are all well formed and of which at most one declares `lastChild`. With two `lastChild` children, or a negative size, a second layout can move children again: `Arrange.TwoLastChildrenSwap` gives two children that trade places on every vertical arrangement.
- Layout.LayoutCompositeIdempotent: the same restriction, applied to the ordinary children.
- Layout.LayoutLinearIdempotent: the same restriction, applied to all children.
- Arrange.ArrangeGroupIdempotent: the same restriction, applied to the group.
- Layout.HandleEncloses: states only that the children are enclosed. The exact fit of a non-flow container and the grow-only rule of a flow are stated by `Fit.FitBounds`.
- `getRightestBoundOfAllChildren` returns 130 for a slot without children (bpelLayout.js:236). The caller adds the margin (line 143), so such a slot measures 160, the default width the comment at line 235 names (`Column.ChildlessSlotMeasures160`).
- The handler resize runs only when `width > 0`. `width` is the measured width of the LAST present slot, not of any slot, and the test fails when no slot is present. The model follows the code (`Column.Normalizes`).
- `if (otherElements)` is always true, because `findAll` returns an array. The handler column's left edge is therefore always 30 + the widest ordinary child + 30, which is 60 when there are none.

=== FILE: arrange.dfy ===
/** Arranging one group of siblings along an axis: sort by the axis key,
    push the lastChild sibling behind the current last one and sort again,
    then pack. The vertical and horizontal layouts run it on all children,
    the composite layout on its ordinary children. */
module Arrange {
  import opened Seqs
  import opened Sorting
  import opened Geometry
  import opened Shapes
  import opened Packing

  /** The sort key of every child (`bounds.upperLeft().y` or `.x`). */
  function Keys(cs: seq<Node>, a: Axis): (ks: seq<int>)
    ensures |ks| == |cs|
    ensures forall i :: 0 <= i < |cs| ==> ks[i] == Key(cs[i].bounds, a)
  {
    seq(|cs|, i requires 0 <= i < |cs| => Key(cs[i].bounds, a))
  }

  /** Whether each node of the group, in the order `o`, declares the
      lastChild role. */
  function LastChildFlags(cs: seq<Node>, o: seq<nat>): (flags: seq<bool>)
    ensures |flags| == |o|
    ensures forall k :: 0 <= k < |o| ==> (flags[k] <==> o[k] < |cs| && cs[o[k]].lastChild)
  {
    seq(|o|, k requires 0 <= k < |o| => o[k] < |cs| && cs[o[k]].lastChild)
  }

  /** The node at position `i` is the only one of the group declaring the
      lastChild role. */
  predicate UniqueLastChild(cs: seq<Node>, o: seq<nat>, i: nat) {
    && i in o
    && i < |cs|
    && cs[i].lastChild
    && forall k :: 0 <= k < |o| && o[k] != i && o[k] < |cs| ==> !cs[o[k]].lastChild
  }

  /** `cs'` is `cs` with only the node at `i` moved, keeping its size, so that
      its upper-left corner is one unit right of and below that of `last`. */
  predicate NudgedBehind(cs: seq<Node>, cs': seq<Node>, i: nat, last: Rect) {
    && |cs'| == |cs|
    && i < |cs|
    && cs'[i] == cs[i].(bounds := cs'[i].bounds)
    && cs'[i].bounds.ulx == last.ulx + 1
    && cs'[i].bounds.uly == last.uly + 1
    && SameSize(cs'[i].bounds, cs[i].bounds)
    && forall j :: 0 <= j < |cs| && j != i ==> cs'[j] == cs[j]
  }

  /** `moveSomeElementToLastPosition`: the first node of `o` declaring the
      lastChild role, unless it is already the last of `o`, is moved just
      past the last node's upper-left corner; the flag says whether anything
      moved. */
  function MoveLastChildToEnd(cs: seq<Node>, o: seq<nat>): (r: (seq<Node>, bool))
    requires ValidOrder(|cs|, o)
    ensures |r.0| == |cs|
    ensures !r.1 ==> r.0 == cs
  {
    match FirstTrue(LastChildFlags(cs, o))
    case None => (cs, false)
    case Some(k) =>
      if k == |o| - 1 then (cs, false)
      else
        var i := o[k];
        var last := cs[o[|o| - 1]].bounds;
        (cs[i := cs[i].(bounds := MoveTo(cs[i].bounds, last.ulx + 1, last.uly + 1))], true)
  }

  /** Something moves exactly when a lastChild node sits before the last
      position; then only the first such node moves, behind the last node. */
  lemma MoveLastChildToEndSpec(cs: seq<Node>, o: seq<nat>)
    requires ValidOrder(|cs|, o)
    ensures var r := MoveLastChildToEnd(cs, o);
      r.1 <==> exists k :: 0 <= k < |o| - 1 && cs[o[k]].lastChild
    ensures var r := MoveLastChildToEnd(cs, o);
      r.1 ==> exists k :: (
        && 0 <= k < |o| - 1
        && cs[o[k]].lastChild
        && (forall j :: 0 <= j < k ==> !cs[o[j]].lastChild)
        && NudgedBehind(cs, r.0, o[k], cs[o[|o| - 1]].bounds))
  {
    match FirstTrue(LastChildFlags(cs, o))
    case None =>
      assert forall k :: 0 <= k < |o| ==> !LastChildFlags(cs, o)[k];
    case Some(k) =>
      assert forall j :: 0 <= j < k ==> !LastChildFlags(cs, o)[j];
      assert LastChildFlags(cs, o)[k];
  }

  /** The child list after nudging the node at o[k] behind the last node of `o`. */
  function Nudge(cs: seq<Node>, o: seq<nat>, k: nat): (cs': seq<Node>)
    requires ValidOrder(|cs|, o) && k < |o|
    ensures |cs'| == |cs|
  {
    var i := o[k];
    var last := cs[o[|o| - 1]].bounds;
    cs[i := cs[i].(bounds := MoveTo(cs[i].bounds, last.ulx + 1, last.uly + 1))]
  }

  lemma MoveLastChildToEndIsNudge(cs: seq<Node>, o: seq<nat>, k: nat)
    requires ValidOrder(|cs|, o)
    requires FirstTrue(LastChildFlags(cs, o)) == Some(k) && k < |o| - 1
    ensures MoveLastChildToEnd(cs, o) == (Nudge(cs, o, k), true)
  {
  }

  /** In a sorted group, the nudged node's key exceeds every other key. */
  lemma NudgeKeys(cs: seq<Node>, o: seq<nat>, a: Axis, k: nat)
    requires ValidOrder(|cs|, o) && k < |o| - 1
    requires SortedBy(o, Keys(cs, a))
    ensures forall m :: 0 <= m < |o| && m != k ==>
      Key(Nudge(cs, o, k)[o[m]].bounds, a) < Key(Nudge(cs, o, k)[o[k]].bounds, a)
  {
    var cs' := Nudge(cs, o, k);
    var last := o[|o| - 1];
    assert Key(cs'[o[k]].bounds, a) == Key(cs[last].bounds, a) + 1 by {
      match a
      case Vertical =>
      case Horizontal =>
    }
    forall m | 0 <= m < |o| && m != k
      ensures Key(cs'[o[m]].bounds, a) < Key(cs'[o[k]].bounds, a)
    {
      assert m == |o| - 1 || KeyAt(Keys(cs, a), o[m]) <= KeyAt(Keys(cs, a), o[|o| - 1]);
      assert cs'[o[m]] == cs[o[m]];
    }
  }

  /** Once the siblings are sorted, the first lastChild node, when it is not
      already last, is nudged to a key strictly larger than every other
      sibling's, whichever axis is sorted on. */
  lemma NudgedKeyIsStrictMaximum(cs: seq<Node>, o: seq<nat>, a: Axis, k: nat)
    requires ValidOrder(|cs|, o)
    requires SortedBy(o, Keys(cs, a))
    requires FirstTrue(LastChildFlags(cs, o)) == Some(k) && k < |o| - 1
    ensures MoveLastChildToEnd(cs, o).1
    ensures var cs' := MoveLastChildToEnd(cs, o).0;
      forall j :: j in o && j != o[k] ==> KeyAt(Keys(cs', a), j) < KeyAt(Keys(cs', a), o[k])
  {
    MoveLastChildToEndIsNudge(cs, o, k);
    NudgeKeys(cs, o, a, k);
    var cs' := Nudge(cs, o, k);
    forall j | j in o && j != o[k]
      ensures KeyAt(Keys(cs', a), j) < KeyAt(Keys(cs', a), o[k])
    {
      var m :| 0 <= m < |o| && o[m] == j;
    }
  }

  /** The lastChild step on the sorted order `o0`, and the second sort when
      it moved a node. */
  function ResortFrom(cs: seq<Node>, o0: seq<nat>, a: Axis): (r: (seq<Node>, seq<nat>))
    requires ValidOrder(|cs|, o0)
    ensures |r.0| == |cs|
    ensures ValidOrder(|cs|, r.1) && |r.1| == |o0| && multiset(r.1) == multiset(o0)
  {
    var m := MoveLastChildToEnd(cs, o0);
    if m.1 then
      PermutedOrderValid(|cs|, o0, SortBy(o0, Keys(m.0, a)));
      (m.0, SortBy(o0, Keys(m.0, a)))
    else (m.0, o0)
  }

  /** `handleLayoutEvent`, `handleLayoutVerticalEvent` and
      `handleLayoutHorizontalEvent` (bpelLayout.js lines 92-105, 262-276 and
      314-327): sort the group by key and, when the lastChild step moved a
      node, sort it again. The final order is a rearrangement of the group
      sorted by the final keys. */
  function Resort(cs: seq<Node>, o: seq<nat>, a: Axis): (r: (seq<Node>, seq<nat>))
    requires ValidOrder(|cs|, o)
    ensures |r.0| == |cs|
    ensures ValidOrder(|cs|, r.1) && |r.1| == |o| && multiset(r.1) == multiset(o)
    ensures SortedBy(r.1, Keys(r.0, a))
  {
    var o0 := SortBy(o, Keys(cs, a));
    PermutedOrderValid(|cs|, o, o0);
    var r := ResortFrom(cs, o0, a);
    PermutedOrderValid(|cs|, o, r.1);
    r
  }

  /** The lastChild step touches at most one node, one that declares the
      role, and only its position. */
  lemma ResortMovesOnlyLastChild(cs: seq<Node>, o: seq<nat>, a: Axis)
    requires ValidOrder(|cs|, o)
    ensures var cs' := Resort(cs, o, a).0;
      forall i :: 0 <= i < |cs| ==>
        && cs'[i] == cs[i].(bounds := cs'[i].bounds)
        && SameSize(cs'[i].bounds, cs[i].bounds)
        && (cs'[i] != cs[i] ==> i in o && cs[i].lastChild)
  {
    var o0 := SortBy(o, Keys(cs, a));
    PermutedOrderValid(|cs|, o, o0);
    PermutedSameMembers(o, o0);
  }

  lemma UniqueLastChildPermuted(cs: seq<Node>, o: seq<nat>, o': seq<nat>, i: nat)
    requires UniqueLastChild(cs, o, i)
    requires forall j :: j in o' <==> j in o
    ensures UniqueLastChild(cs, o', i)
  {
    forall k | 0 <= k < |o'| && o'[k] != i && o'[k] < |cs|
      ensures !cs[o'[k]].lastChild
    {
      assert o'[k] in o;
      var m :| 0 <= m < |o| && o[m] == o'[k];
    }
  }

  /** With one lastChild node in the group, the search finds it. */
  lemma FindsUniqueLastChild(cs: seq<Node>, o: seq<nat>, i: nat)
    requires ValidOrder(|cs|, o) && UniqueLastChild(cs, o, i)
    ensures FirstTrue(LastChildFlags(cs, o)).Some?
    ensures o[FirstTrue(LastChildFlags(cs, o)).value] == i
  {
    var p :| 0 <= p < |o| && o[p] == i;
    assert LastChildFlags(cs, o)[p];
  }

  /** After the first sort, the first lastChild node ends last: either it
      already is, or it is nudged and the second sort puts it there. */
  lemma SortedThenNudgedLast(cs: seq<Node>, o0: seq<nat>, a: Axis, k: nat)
    requires ValidOrder(|cs|, o0) && SortedBy(o0, Keys(cs, a))
    requires FirstTrue(LastChildFlags(cs, o0)) == Some(k)
    ensures EndsWith(ResortFrom(cs, o0, a).1, o0[k])
  {
    if k < |o0| - 1 {
      NudgedResortedLast(cs, o0, a, k);
    } else {
      AlreadyLastNotMoved(cs, o0, k);
      ResortFromWhenNotMoved(cs, o0, a);
    }
  }

  lemma NudgedResortedLast(cs: seq<Node>, o0: seq<nat>, a: Axis, k: nat)
    requires ValidOrder(|cs|, o0) && SortedBy(o0, Keys(cs, a))
    requires FirstTrue(LastChildFlags(cs, o0)) == Some(k) && k < |o0| - 1
    ensures EndsWith(ResortFrom(cs, o0, a).1, o0[k])
  {
    NudgedThenLast(cs, o0, a, k);
    ResortFromWhenMoved(cs, o0, a);
  }

  lemma ResortFromWhenMoved(cs: seq<Node>, o0: seq<nat>, a: Axis)
    requires ValidOrder(|cs|, o0) && MoveLastChildToEnd(cs, o0).1
    ensures ResortFrom(cs, o0, a).1 == SortBy(o0, Keys(MoveLastChildToEnd(cs, o0).0, a))
  {
  }

  lemma ResortFromWhenNotMoved(cs: seq<Node>, o0: seq<nat>, a: Axis)
    requires ValidOrder(|cs|, o0) && !MoveLastChildToEnd(cs, o0).1
    ensures ResortFrom(cs, o0, a).1 == o0
  {
  }

  /** The only node of the group declaring the lastChild role comes last in
      the final order. */
  lemma ResortPutsLastChildLast(cs: seq<Node>, o: seq<nat>, a: Axis, i: nat)
    requires ValidOrder(|cs|, o)
    requires UniqueLastChild(cs, o, i)
    ensures EndsWith(Resort(cs, o, a).1, i)
  {
    var o0 := SortBy(o, Keys(cs, a));
    var k := SortedFindsUniqueLastChild(cs, o, a, i);
    SortedThenNudgedLast(cs, o0, a, k);
  }

  /** After the first sort, the search still finds the group's only lastChild
      node. */
  lemma SortedFindsUniqueLastChild(cs: seq<Node>, o: seq<nat>, a: Axis, i: nat) returns (k: nat)
    requires ValidOrder(|cs|, o) && UniqueLastChild(cs, o, i)
    ensures var o0 := SortBy(o, Keys(cs, a));
      ValidOrder(|cs|, o0) && FirstTrue(LastChildFlags(cs, o0)) == Some(k) && o0[k] == i
  {
    var o0 := SortBy(o, Keys(cs, a));
    PermutedOrderValid(|cs|, o, o0);
    PermutedSameMembers(o, o0);
    UniqueLastChildPermuted(cs, o, o0, i);
    FindsUniqueLastChild(cs, o0, i);
    k := FirstTrue(LastChildFlags(cs, o0)).value;
  }

  lemma AlreadyLastNotMoved(cs: seq<Node>, o0: seq<nat>, k: nat)
    requires ValidOrder(|cs|, o0)
    requires FirstTrue(LastChildFlags(cs, o0)) == Some(k) && k == |o0| - 1
    ensures !MoveLastChildToEnd(cs, o0).1
  {
  }

  lemma NudgedThenLast(cs: seq<Node>, o0: seq<nat>, a: Axis, k: nat)
    requires ValidOrder(|cs|, o0) && SortedBy(o0, Keys(cs, a))
    requires FirstTrue(LastChildFlags(cs, o0)) == Some(k) && k < |o0| - 1
    ensures var r := MoveLastChildToEnd(cs, o0);
      r.1 && EndsWith(SortBy(o0, Keys(r.0, a)), o0[k])
  {
    NudgedKeyIsStrictMaximum(cs, o0, a, k);
    var cs1 := MoveLastChildToEnd(cs, o0).0;
    SortPutsStrictMaximumLast(o0, Keys(cs1, a), o0[k]);
  }

  /** The result of arranging a group: the whole child list with new bounds,
      and the order in which the group was packed. */
  datatype Arranged = Arranged(children: seq<Node>, order: seq<nat>)

  /** The children at the positions `order` are packed along the axis: the
      first at the margin, each next one a margin past the end of the previous. */
  predicate Packed(cs: seq<Node>, order: seq<nat>, a: Axis)
    requires forall k :: 0 <= k < |order| ==> order[k] < |cs|
  {
    && (|order| > 0 ==> Key(cs[order[0]].bounds, a) == Margin)
    && forall k :: 0 <= k < |order| - 1 ==>
      Key(cs[order[k + 1]].bounds, a)
        == Key(cs[order[k]].bounds, a) + Extent(cs[order[k]].bounds, a) + Margin
  }

  /** Writing chained rectangles back at the positions `o` packs those nodes. */
  lemma ScatterPacks(cs: seq<Node>, o: seq<nat>, rs: seq<Rect>, a: Axis)
    requires ValidOrder(|cs|, o) && |rs| == |o| && Chained(rs, a, 0)
    ensures Packed(Scatter(cs, o, rs), o, a)
  {
    GatherScattered(cs, o, rs);
  }

  /** The packing loop over the group in the order `o`, written back into
      the child list. */
  function PackGroup(cs: seq<Node>, o: seq<nat>, a: Axis): (r: seq<Node>)
    requires ValidOrder(|cs|, o)
    ensures |r| == |cs|
    ensures Packed(r, o, a)
  {
    var packed := PackRects(Gather(cs, o), a, 0);
    PackRectsChained(Gather(cs, o), a, 0);
    ScatterPacks(cs, o, packed, a);
    Scatter(cs, o, packed)
  }

  /** Packing moves only the group's nodes, changes only their bounds and
      never their sizes; a node whose key already matched keeps its bounds,
      one that moved has its cross coordinate at the margin. */
  lemma PackGroupFrame(cs: seq<Node>, o: seq<nat>, a: Axis)
    requires ValidOrder(|cs|, o)
    ensures var r := PackGroup(cs, o, a);
      forall i :: 0 <= i < |cs| && i !in o ==> r[i] == cs[i]
    ensures var r := PackGroup(cs, o, a);
      forall k :: 0 <= k < |o| ==>
        && r[o[k]] == cs[o[k]].(bounds := r[o[k]].bounds)
        && SameSize(r[o[k]].bounds, cs[o[k]].bounds)
        && if Key(r[o[k]].bounds, a) == Key(cs[o[k]].bounds, a)
           then r[o[k]] == cs[o[k]]
           else Cross(r[o[k]].bounds, a) == Margin
  {
  }

  /** Sort, lastChild step, sort again, pack. */
  function ArrangeGroup(cs: seq<Node>, o: seq<nat>, a: Axis): (r: Arranged)
    requires ValidOrder(|cs|, o)
    ensures |r.children| == |cs|
    ensures ValidOrder(|cs|, r.order) && multiset(r.order) == multiset(o)
    ensures Packed(r.children, r.order, a)
  {
    var (cs1, o1) := Resort(cs, o, a);
    Arranged(PackGroup(cs1, o1, a), o1)
  }

  /** Arranging a group changes only the bounds of the group's nodes, never
      their sizes; a node not declaring lastChild whose key already matched
      keeps its bounds, and one that moved has its cross coordinate at the
      margin. */
  lemma ArrangeGroupFrame(cs: seq<Node>, o: seq<nat>, a: Axis, i: nat)
    requires ValidOrder(|cs|, o) && i < |cs|
    ensures var r := ArrangeGroup(cs, o, a).children;
      && (i !in o ==> r[i] == cs[i])
      && r[i] == cs[i].(bounds := r[i].bounds)
      && SameSize(r[i].bounds, cs[i].bounds)
      && (i in o && !cs[i].lastChild ==>
            if Key(r[i].bounds, a) == Key(cs[i].bounds, a)
            then r[i] == cs[i]
            else Cross(r[i].bounds, a) == Margin)
  {
    var (cs1, o1) := Resort(cs, o, a);
    ResortMovesOnlyLastChild(cs, o, a);
    assert cs1[i] == cs[i].(bounds := cs1[i].bounds) && SameSize(cs1[i].bounds, cs[i].bounds);
    PackGroupFrame(cs1, o1, a);
    PermutedSameMembers(o, o1);
    if i in o {
      var k :| 0 <= k < |o1| && o1[k] == i;
    }
  }

  /** Packed nodes with no negative size have strictly increasing keys. */
  lemma PackedKeysIncrease(cs: seq<Node>, o: seq<nat>, a: Axis)
    requires forall k :: 0 <= k < |o| ==> o[k] < |cs| && WellFormed(cs[o[k]].bounds)
    requires Packed(cs, o, a)
    ensures forall p, q :: 0 <= p < q < |o| ==> Key(cs[o[p]].bounds, a) < Key(cs[o[q]].bounds, a)
  {
    forall p, q | 0 <= p < q < |o|
      ensures Key(cs[o[p]].bounds, a) < Key(cs[o[q]].bounds, a)
    {
      var k := p;
      while k < q
        invariant p <= k <= q
        invariant Key(cs[o[p]].bounds, a) <= Key(cs[o[k]].bounds, a)
        invariant k > p ==> Key(cs[o[p]].bounds, a) < Key(cs[o[k]].bounds, a)
      {
        assert WellFormed(cs[o[k]].bounds);
        k := k + 1;
      }
    }
  }

  /** Arranging keeps every node of the group well formed. */
  lemma ArrangeGroupKeepsWellFormed(cs: seq<Node>, o: seq<nat>, a: Axis)
    requires ValidOrder(|cs|, o)
    requires forall k :: 0 <= k < |o| ==> WellFormed(cs[o[k]].bounds)
    ensures var r := ArrangeGroup(cs, o, a);
      forall k :: 0 <= k < |r.order| ==> WellFormed(r.children[r.order[k]].bounds)
  {
    var r := ArrangeGroup(cs, o, a);
    PermutedSameMembers(o, r.order);
    forall k | 0 <= k < |r.order|
      ensures WellFormed(r.children[r.order[k]].bounds)
    {
      var i := r.order[k];
      ArrangeGroupFrame(cs, o, a, i);
      assert i in o;
      var m :| 0 <= m < |o| && o[m] == i;
    }
  }

  /** The only lastChild node of the group is packed last: its key ends up
      strictly larger than every other node's of the group. */
  lemma ArrangeGroupLastChildLast(cs: seq<Node>, o: seq<nat>, a: Axis, i: nat)
    requires ValidOrder(|cs|, o)
    requires forall k :: 0 <= k < |o| ==> WellFormed(cs[o[k]].bounds)
    requires UniqueLastChild(cs, o, i)
    ensures var r := ArrangeGroup(cs, o, a);
      forall k :: 0 <= k < |o| && o[k] != i ==>
        Key(r.children[o[k]].bounds, a) < Key(r.children[i].bounds, a)
  {
    var r := ArrangeGroup(cs, o, a);
    ResortPutsLastChildLast(cs, o, a, i);
    assert EndsWith(r.order, i);
    ArrangeGroupKeepsWellFormed(cs, o, a);
    PackedKeysIncrease(r.children, r.order, a);
    PermutedSameMembers(o, r.order);
    KeysBelowLast(r.children, r.order, o, a, i);
  }

  /** Along an order whose keys increase strictly and which ends with `i`,
      every other listed node has a smaller key than `i`. */
  lemma KeysBelowLast(r: seq<Node>, ord: seq<nat>, o: seq<nat>, a: Axis, i: nat)
    requires forall k :: 0 <= k < |ord| ==> ord[k] < |r|
    requires forall k :: 0 <= k < |o| ==> o[k] < |r|
    requires forall p, q :: 0 <= p < q < |ord| ==> Key(r[ord[p]].bounds, a) < Key(r[ord[q]].bounds, a)
    requires EndsWith(ord, i)
    requires forall j :: j in o ==> j in ord
    ensures forall k :: 0 <= k < |o| && o[k] != i ==> Key(r[o[k]].bounds, a) < Key(r[i].bounds, a)
  {
    forall k | 0 <= k < |o| && o[k] != i
      ensures Key(r[o[k]].bounds, a) < Key(r[i].bounds, a)
    {
      assert o[k] in o;
      var q :| 0 <= q < |ord| && ord[q] == o[k];
    }
  }

  /** No node declaring lastChild sits before the last position of `o`. */
  predicate LastChildAtEnd(cs: seq<Node>, o: seq<nat>) {
    forall k :: 0 <= k < |o| - 1 && o[k] < |cs| ==> !cs[o[k]].lastChild
  }

  /** At most one node of the group declares lastChild. */
  predicate AtMostOneLastChild(cs: seq<Node>, o: seq<nat>) {
    forall p, q ::
      (0 <= p < |o| && 0 <= q < |o| && o[p] < |cs| && o[q] < |cs|
       && cs[o[p]].lastChild && cs[o[q]].lastChild) ==> p == q
  }

  /** Packing a group that is already packed in the order `o` changes nothing. */
  lemma PackGroupOnPacked(cs: seq<Node>, o: seq<nat>, a: Axis)
    requires ValidOrder(|cs|, o) && Packed(cs, o, a)
    ensures PackGroup(cs, o, a) == cs
  {
    var rs := Gather(cs, o);
    assert forall k :: 0 <= k < |o| ==> rs[k] == cs[o[k]].bounds;
    PackedIsFixed(rs, a, 0);
    ScatterGathered(cs, o);
  }

  /** Keys that increase strictly along `o1` make `o1` the only sorted
      arrangement of its positions. */
  lemma SortFindsPacked(cs: seq<Node>, o: seq<nat>, o1: seq<nat>, a: Axis)
    requires multiset(o1) == multiset(o)
    requires forall k :: 0 <= k < |o1| ==> o1[k] < |cs| && WellFormed(cs[o1[k]].bounds)
    requires Packed(cs, o1, a)
    ensures SortBy(o, Keys(cs, a)) == o1
  {
    PackedKeysIncrease(cs, o1, a);
    var key := Keys(cs, a);
    assert StrictlySortedBy(o1, key) by {
      forall p, q | 0 <= p < q < |o1|
        ensures KeyAt(key, o1[p]) < KeyAt(key, o1[q])
      {
        assert KeyAt(key, o1[p]) == Key(cs[o1[p]].bounds, a);
        assert KeyAt(key, o1[q]) == Key(cs[o1[q]].bounds, a);
      }
    }
    SortedUnique(SortBy(o, key), o1, key);
  }

  /** With no lastChild node before the end, the lastChild step does nothing. */
  lemma LastChildAtEndNotMoved(cs: seq<Node>, o1: seq<nat>)
    requires ValidOrder(|cs|, o1) && LastChildAtEnd(cs, o1)
    ensures MoveLastChildToEnd(cs, o1) == (cs, false)
  {
    match FirstTrue(LastChildFlags(cs, o1))
    case None =>
    case Some(k) =>
      assert LastChildFlags(cs, o1)[k];
      assert k == |o1| - 1;
  }

  /** On a group packed in the order `o1` with its lastChild node (if any)
      last, the sort finds exactly `o1` and the lastChild step does nothing. */
  lemma ResortOnPacked(cs: seq<Node>, o: seq<nat>, o1: seq<nat>, a: Axis)
    requires ValidOrder(|cs|, o) && multiset(o1) == multiset(o)
    requires forall k :: 0 <= k < |o1| ==> o1[k] < |cs| && WellFormed(cs[o1[k]].bounds)
    requires Packed(cs, o1, a) && LastChildAtEnd(cs, o1)
    ensures Resort(cs, o, a) == (cs, o1)
  {
    PermutedOrderValid(|cs|, o, o1);
    SortFindsPacked(cs, o, o1, a);
    LastChildAtEndNotMoved(cs, o1);
  }

  /** A group that is already arranged is left exactly as it is. */
  lemma ArrangeGroupOnPacked(cs: seq<Node>, o: seq<nat>, o1: seq<nat>, a: Axis)
    requires ValidOrder(|cs|, o) && multiset(o1) == multiset(o)
    requires forall k :: 0 <= k < |o1| ==> o1[k] < |cs| && WellFormed(cs[o1[k]].bounds)
    requires Packed(cs, o1, a) && LastChildAtEnd(cs, o1)
    ensures ArrangeGroup(cs, o, a) == Arranged(cs, o1)
  {
    ResortOnPacked(cs, o, o1, a);
    PermutedOrderValid(|cs|, o, o1);
    PackGroupOnPacked(cs, o1, a);
  }

  lemma UniqueFromAtMostOne(cs: seq<Node>, o: seq<nat>, m: nat)
    requires ValidOrder(|cs|, o) && AtMostOneLastChild(cs, o)
    requires m < |o| && cs[o[m]].lastChild
    ensures UniqueLastChild(cs, o, o[m])
  {
    forall k | 0 <= k < |o| && o[k] != o[m] && o[k] < |cs|
      ensures !cs[o[k]].lastChild
    {
      assert k != m;
    }
  }

  /** Arranging never changes which nodes declare lastChild. */
  lemma LastChildFlagKept(cs: seq<Node>, o: seq<nat>, a: Axis, i: nat)
    requires ValidOrder(|cs|, o) && i < |cs|
    ensures ArrangeGroup(cs, o, a).children[i].lastChild == cs[i].lastChild
  {
    ArrangeGroupFrame(cs, o, a, i);
  }

  /** With at most one lastChild node, arranging leaves it last. */
  lemma ArrangeGroupLastChildAtEnd(cs: seq<Node>, o: seq<nat>, a: Axis)
    requires ValidOrder(|cs|, o) && AtMostOneLastChild(cs, o)
    ensures var r := ArrangeGroup(cs, o, a); LastChildAtEnd(r.children, r.order)
  {
    if m :| 0 <= m < |o| && cs[o[m]].lastChild {
      UniqueFromAtMostOne(cs, o, m);
      UniqueLastChildEndsLast(cs, o, a, o[m]);
    } else {
      NoLastChildStaysNone(cs, o, a);
    }
  }

  lemma UniqueLastChildEndsLast(cs: seq<Node>, o: seq<nat>, a: Axis, i: nat)
    requires ValidOrder(|cs|, o) && UniqueLastChild(cs, o, i)
    ensures var r := ArrangeGroup(cs, o, a); LastChildAtEnd(r.children, r.order)
  {
    var o1 := ArrangeGroup(cs, o, a).order;
    ResortPutsLastChildLast(cs, o, a, i);
    assert o1 == Resort(cs, o, a).1;
    PermutedSameMembers(o, o1);
    UniqueLastChildPermuted(cs, o, o1, i);
    LastChildAtEndKept(cs, o, a);
  }

  /** Arranging keeps the lastChild flags, so whether the lastChild node is
      last can be read off the original nodes. */
  lemma LastChildAtEndKept(cs: seq<Node>, o: seq<nat>, a: Axis)
    requires ValidOrder(|cs|, o)
    requires LastChildAtEnd(cs, ArrangeGroup(cs, o, a).order)
    ensures var r := ArrangeGroup(cs, o, a); LastChildAtEnd(r.children, r.order)
  {
    var r := ArrangeGroup(cs, o, a);
    forall k | 0 <= k < |r.order| - 1
      ensures !r.children[r.order[k]].lastChild
    {
      LastChildFlagKept(cs, o, a, r.order[k]);
    }
  }

  lemma NoLastChildStaysNone(cs: seq<Node>, o: seq<nat>, a: Axis)
    requires ValidOrder(|cs|, o)
    requires forall m :: 0 <= m < |o| ==> !cs[o[m]].lastChild
    ensures var r := ArrangeGroup(cs, o, a); LastChildAtEnd(r.children, r.order)
  {
    var o1 := ArrangeGroup(cs, o, a).order;
    PermutedSameMembers(o, o1);
    forall k | 0 <= k < |o1| - 1
      ensures !cs[o1[k]].lastChild
    {
      assert o1[k] in o;
    }
    LastChildAtEndKept(cs, o, a);
  }

  /** Arranging twice is arranging once, for a group of well-formed nodes
      with at most one lastChild node. */
  lemma ArrangeGroupIdempotent(cs: seq<Node>, o: seq<nat>, a: Axis)
    requires ValidOrder(|cs|, o)
    requires forall k :: 0 <= k < |o| ==> WellFormed(cs[o[k]].bounds)
    requires AtMostOneLastChild(cs, o)
    ensures var r := ArrangeGroup(cs, o, a); ArrangeGroup(r.children, o, a) == r
  {
    var r := ArrangeGroup(cs, o, a);
    ArrangeGroupKeepsWellFormed(cs, o, a);
    ArrangeGroupLastChildAtEnd(cs, o, a);
    ArrangeGroupOnPacked(r.children, o, r.order, a);
  }

  /** Two nodes declaring the lastChild role, with the given bounds. */
  function LastChildPair(ra: Rect, rb: Rect): (cs: seq<Node>)
    ensures |cs| == 2 && cs[0].lastChild && cs[1].lastChild
    ensures cs[0].bounds == ra && cs[1].bounds == rb
  {
    [Node(Other, true, ra, Undefined, []), Node(Other, true, rb, Undefined, [])]
  }

  /** A rectangle 100 wide and 50 high at x = 30 and the given y. */
  function Row(y: int): Rect {
    Rect(30, y, 130, y + 50)
  }

  /** The rectangle 100 wide and 50 high pushed behind `Row(110)`. */
  const Pushed: Rect := Rect(31, 111, 131, 161)

  /** The lastChild step on the pair sorted in its given order pushes the
      first node behind the second. */
  lemma PairMove()
    ensures MoveLastChildToEnd(LastChildPair(Row(30), Row(110)), [0, 1])
      == (LastChildPair(Pushed, Row(110)), true)
  {
    var cs := LastChildPair(Row(30), Row(110));
    assert FirstTrue(LastChildFlags(cs, [0, 1])) == Some(0);
    var m := MoveLastChildToEnd(cs, [0, 1]);
    assert m.1 && m.0 == cs[0 := cs[0].(bounds := MoveTo(Row(30), 31, 111))];
    assert m.0 == LastChildPair(Pushed, Row(110));
  }

  /** The same step with the two nodes' positions exchanged. */
  lemma PairMoveSwapped()
    ensures MoveLastChildToEnd(LastChildPair(Row(110), Row(30)), [1, 0])
      == (LastChildPair(Row(110), Pushed), true)
  {
    var cs := LastChildPair(Row(110), Row(30));
    assert FirstTrue(LastChildFlags(cs, [1, 0])) == Some(0);
    var m := MoveLastChildToEnd(cs, [1, 0]);
    assert m.1 && m.0 == cs[1 := cs[1].(bounds := MoveTo(Row(30), 31, 111))];
    assert m.0 == LastChildPair(Row(110), Pushed);
  }

  /** The first node is pushed behind the second and sorted after it. */
  lemma PairResort()
    ensures Resort(LastChildPair(Row(30), Row(110)), [0, 1], Vertical)
      == (LastChildPair(Pushed, Row(110)), [1, 0])
  {
    SortTwo(0, 1, Keys(LastChildPair(Row(30), Row(110)), Vertical));
    PairMove();
    SortTwo(0, 1, Keys(LastChildPair(Pushed, Row(110)), Vertical));
  }

  /** The same step with the two nodes' positions exchanged. */
  lemma PairResortSwapped()
    ensures Resort(LastChildPair(Row(110), Row(30)), [0, 1], Vertical)
      == (LastChildPair(Row(110), Pushed), [0, 1])
  {
    SortTwo(0, 1, Keys(LastChildPair(Row(110), Row(30)), Vertical));
    PairMoveSwapped();
    SortTwo(1, 0, Keys(LastChildPair(Row(110), Pushed), Vertical));
  }

  /** Packing `Row(110)` then `Pushed` moves them to `Row(30)` and `Row(110)`. */
  lemma PairPackRects()
    ensures PackRects([Row(110), Pushed], Vertical, 0) == [Row(30), Row(110)]
  {
    var rs := [Row(110), Pushed];
    assert rs[1..] == [Pushed];
    assert PackRects([Pushed], Vertical, Margin + 50) == [Row(110)];
  }

  /** Packing the moved pair in its new order puts the second node at the
      top and the first below it. */
  lemma PairPack()
    ensures PackGroup(LastChildPair(Pushed, Row(110)), [1, 0], Vertical) == LastChildPair(Row(110), Row(30))
  {
    assert Gather(LastChildPair(Pushed, Row(110)), [1, 0]) == [Row(110), Pushed];
    PairPackRects();
  }

  /** The same packing with the two nodes' positions exchanged. */
  lemma PairPackSwapped()
    ensures PackGroup(LastChildPair(Row(110), Pushed), [0, 1], Vertical) == LastChildPair(Row(30), Row(110))
  {
    assert Gather(LastChildPair(Row(110), Pushed), [0, 1]) == [Row(110), Pushed];
    PairPackRects();
  }

  /** Without the lastChild restriction arranging is not idempotent. Two
      lastChild nodes 50 high, at y = 30 and y = 110, trade places on every
      vertical arrangement: the first is pushed behind the second, the group
      is sorted again, and packing puts the second at the top. */
  lemma TwoLastChildrenSwap()
    ensures ArrangeGroup(LastChildPair(Row(30), Row(110)), [0, 1], Vertical)
      == Arranged(LastChildPair(Row(110), Row(30)), [1, 0])
    ensures ArrangeGroup(LastChildPair(Row(110), Row(30)), [0, 1], Vertical)
      == Arranged(LastChildPair(Row(30), Row(110)), [0, 1])
  {
    PairResort();
    PairPack();
    PairResortSwapped();
    PairPackSwapped();
  }

  /** The nodes at the positions `o` are the same in both lists. */
  predicate SameAt(cs: seq<Node>, cs': seq<Node>, o: seq<nat>) {
    forall k :: 0 <= k < |o| ==> o[k] < |cs| && o[k] < |cs'| && cs'[o[k]] == cs[o[k]]
  }

  /** Whether a group is arranged depends only on the group's own nodes. */
  lemma ArrangedDependsOnGroup(cs: seq<Node>, cs': seq<Node>, o: seq<nat>, a: Axis)
    requires SameAt(cs, cs', o)
    requires forall k :: 0 <= k < |o| ==> WellFormed(cs[o[k]].bounds)
    requires Packed(cs, o, a) && LastChildAtEnd(cs, o)
    ensures forall k :: 0 <= k < |o| ==> WellFormed(cs'[o[k]].bounds)
    ensures Packed(cs', o, a) && LastChildAtEnd(cs', o)
  {
    PackedDependsOnGroup(cs, cs', o, a);
  }

  /** Whether a group is packed depends only on the group's own nodes. */
  lemma PackedDependsOnGroup(cs: seq<Node>, cs': seq<Node>, o: seq<nat>, a: Axis)
    requires SameAt(cs, cs', o) && Packed(cs, o, a)
    ensures Packed(cs', o, a)
  {
    forall k | 0 <= k < |o| - 1
      ensures Key(cs'[o[k + 1]].bounds, a)
        == Key(cs'[o[k]].bounds, a) + Extent(cs'[o[k]].bounds, a) + Margin
    {
      assert cs'[o[k]] == cs[o[k]] && cs'[o[k + 1]] == cs[o[k + 1]];
    }
  }
}

=== FILE: column.dfy ===
/** The right-hand column of a composite container: the present handler
    slots stacked top to bottom at one left edge and, under the condition the
    code tests, resized to one common width. */
module Column {
  import opened Seqs
  import opened Sorting
  import opened Geometry
  import opened Shapes

  /** Vertical gap between consecutive handler slots. */
  const SlotGap: int := 10

  /** What `getRightestBoundOfAllChildren` reports for a slot without
      children; the code's comment calls 160 the default width, and the
      caller's added margin makes it that. */
  const EmptySlotRight: int := 130

  /** `getRightestBoundOfAllChildren`, given a slot's own children: the
      largest right edge among them, or the fixed default when there are none. */
  function RightmostChildBound(children: seq<Node>): (r: int)
    ensures |children| == 0 ==> r == EmptySlotRight
    ensures forall k :: 0 <= k < |children| ==> children[k].bounds.lrx <= r
    ensures |children| > 0 ==> exists k :: 0 <= k < |children| && r == children[k].bounds.lrx
  {
    if |children| == 0 then EmptySlotRight
    else LastKey(RightEdges(children))
  }

  /** The width a slot asks for: its rightmost child bound plus the margin. */
  function MeasuredWidth(h: Node): int {
    RightmostChildBound(h.children) + Margin
  }

  function Widths(hs: seq<Node>): (ws: seq<int>)
    ensures |ws| == |hs|
    ensures forall k :: 0 <= k < |hs| ==> ws[k] == MeasuredWidth(hs[k])
  {
    seq(|hs|, k requires 0 <= k < |hs| => MeasuredWidth(hs[k]))
  }

  /** The running `maxWidth`, starting from 0. */
  function ColumnWidth(hs: seq<Node>): int {
    FoldMax(0, Widths(hs))
  }

  /** The test `width > 0` before the resize loop: `width` holds the measured
      width of the LAST present slot, and is undefined (so the test fails)
      when no slot is present. */
  predicate Normalizes(hs: seq<Node>) {
    |hs| > 0 && MeasuredWidth(hs[|hs| - 1]) > 0
  }

  function BoundsOf(hs: seq<Node>): (bs: seq<Rect>)
    ensures |bs| == |hs|
    ensures forall k :: 0 <= k < |hs| ==> bs[k] == hs[k].bounds
  {
    seq(|hs|, k requires 0 <= k < |hs| => hs[k].bounds)
  }

  /** Moves each rectangle to the left edge `left`, the first at `top` and
      each next one `SlotGap` below the bottom of the previous one. */
  function StackRects(rs: seq<Rect>, left: int, top: int): (r: seq<Rect>)
    ensures |r| == |rs|
    ensures forall k :: 0 <= k < |rs| ==> r[k].ulx == left && SameSize(r[k], rs[k])
    ensures |rs| > 0 ==> r[0].uly == top
    ensures forall k :: 0 <= k < |rs| - 1 ==> r[k + 1].uly == r[k].lry + SlotGap
  {
    if |rs| == 0 then []
    else
      var b := MoveTo(rs[0], left, top);
      var t := StackRects(rs[1..], left, b.lry + SlotGap);
      assert forall k :: 1 <= k < |rs| ==> rs[k] == rs[1..][k - 1];
      [b] + t
  }

  /** `bounds.set(ul.x, ul.y, ul.x + maxWidth, lr.y)` when the width differs. */
  function NormalizeWidth(b: Rect, w: int): (r: Rect)
    ensures r.ulx == b.ulx && r.uly == b.uly && r.lry == b.lry
    ensures Width(r) == w
  {
    if Width(b) != w then Rect(b.ulx, b.uly, b.ulx + w, b.lry) else b
  }

  function NormalizeAll(rs: seq<Rect>, w: int): (r: seq<Rect>)
    ensures |r| == |rs|
    ensures forall k :: 0 <= k < |rs| ==>
      r[k].ulx == rs[k].ulx && r[k].uly == rs[k].uly && r[k].lry == rs[k].lry && Width(r[k]) == w
  {
    seq(|rs|, k requires 0 <= k < |rs| => NormalizeWidth(rs[k], w))
  }

  /** When the column normalises, its common width is the largest width
      any present slot asks for. */
  lemma ColumnWidthIsLargest(hs: seq<Node>)
    requires Normalizes(hs)
    ensures forall k :: 0 <= k < |hs| ==> MeasuredWidth(hs[k]) <= ColumnWidth(hs)
    ensures exists k :: 0 <= k < |hs| && ColumnWidth(hs) == MeasuredWidth(hs[k])
  {
    var ws := Widths(hs);
    assert ws[|hs| - 1] > 0;
    assert ColumnWidth(hs) in ws;
  }

  /** The new bounds of the present slots `hs`, given in the fixed order
      event, fault, compensation, termination. */
  function ColumnRects(hs: seq<Node>, left: int): (rs: seq<Rect>)
    ensures |rs| == |hs|
    ensures forall k :: 0 <= k < |hs| ==>
      rs[k].ulx == left && Height(rs[k]) == Height(hs[k].bounds)
    ensures |hs| > 0 ==> rs[0].uly == Margin
    ensures forall k :: 0 <= k < |hs| - 1 ==> rs[k + 1].uly == rs[k].lry + SlotGap
    ensures !Normalizes(hs) ==> forall k :: 0 <= k < |hs| ==> Width(rs[k]) == Width(hs[k].bounds)
    ensures Normalizes(hs) ==> forall k :: 0 <= k < |hs| ==> Width(rs[k]) == ColumnWidth(hs)
  {
    var st := StackRects(BoundsOf(hs), left, Margin);
    if Normalizes(hs) then
      NormalizeAll(st, ColumnWidth(hs))
    else st
  }

  /** The nodes at the positions `p`, in that order. */
  function SlotNodes(cs: seq<Node>, p: seq<nat>): (hs: seq<Node>)
    requires forall k :: 0 <= k < |p| ==> p[k] < |cs|
    ensures |hs| == |p|
    ensures forall k :: 0 <= k < |p| ==> hs[k] == cs[p[k]]
  {
    seq(|p|, k requires 0 <= k < |p| => cs[p[k]])
  }

  /** The handler column of `handleLayoutEvent` (bpelLayout.js lines 130-222):
      stack the present slots at `left` and resize them, written back into the
      child list. */
  function HandlerColumn(cs: seq<Node>, p: seq<nat>, left: int): (r: seq<Node>)
    requires ValidOrder(|cs|, p)
    ensures |r| == |cs|
    ensures forall i :: 0 <= i < |cs| && i !in p ==> r[i] == cs[i]
    ensures forall k :: 0 <= k < |p| ==>
      r[p[k]] == cs[p[k]].(bounds := ColumnRects(SlotNodes(cs, p), left)[k])
  {
    Scatter(cs, p, ColumnRects(SlotNodes(cs, p), left))
  }

  /** The column step leaves every node at the positions `o`, none of them
      a slot, as it was. */
  lemma HandlerColumnFrame(cs: seq<Node>, p: seq<nat>, left: int, o: seq<nat>)
    requires ValidOrder(|cs|, p)
    requires forall k :: 0 <= k < |o| ==> o[k] < |cs| && o[k] !in p
    ensures forall k :: 0 <= k < |o| ==> HandlerColumn(cs, p, left)[o[k]] == cs[o[k]]
  {
  }

  /** Column alignment: when the column normalises, every present slot
      ends up with the same width, the largest width any of them asks for. */
  lemma ColumnAligned(hs: seq<Node>, left: int)
    requires Normalizes(hs)
    ensures var rs := ColumnRects(hs, left);
      forall k, j :: 0 <= k < |hs| && 0 <= j < |hs| ==>
        Width(rs[k]) == Width(rs[j]) && MeasuredWidth(hs[j]) <= Width(rs[k])
    ensures exists j :: 0 <= j < |hs| && Width(ColumnRects(hs, left)[0]) == MeasuredWidth(hs[j])
  {
    ColumnWidthIsLargest(hs);
  }

  /** The column depends on the slots only through their children, their
      heights and, when it does not normalise, their widths. */
  lemma ColumnDeterminedByShape(hs: seq<Node>, hs': seq<Node>, left: int)
    requires |hs'| == |hs|
    requires forall k :: 0 <= k < |hs| ==>
      hs'[k].children == hs[k].children && Height(hs'[k].bounds) == Height(hs[k].bounds)
    requires !Normalizes(hs) ==>
      forall k :: 0 <= k < |hs| ==> Width(hs'[k].bounds) == Width(hs[k].bounds)
    ensures ColumnRects(hs', left) == ColumnRects(hs, left)
  {
    var rs := ColumnRects(hs, left);
    var rs' := ColumnRects(hs', left);
    ColumnWidthsAgree(hs, hs', left);
    forall k | 0 <= k < |hs|
      ensures SameSize(rs'[k], rs[k])
    {
      assert Height(rs'[k]) == Height(hs'[k].bounds) == Height(hs[k].bounds) == Height(rs[k]);
    }
    StacksAgree(rs, rs', left);
  }

  lemma ColumnWidthsAgree(hs: seq<Node>, hs': seq<Node>, left: int)
    requires |hs'| == |hs|
    requires forall k :: 0 <= k < |hs| ==> hs'[k].children == hs[k].children
    requires !Normalizes(hs) ==>
      forall k :: 0 <= k < |hs| ==> Width(hs'[k].bounds) == Width(hs[k].bounds)
    ensures forall k :: 0 <= k < |hs| ==>
      Width(ColumnRects(hs', left)[k]) == Width(ColumnRects(hs, left)[k])
  {
    SameChildrenSameWidths(hs, hs');
  }

  /** Two stacks at the same left edge with the same sizes coincide. */
  lemma StacksAgree(rs: seq<Rect>, rs': seq<Rect>, left: int)
    requires |rs'| == |rs|
    requires forall k :: 0 <= k < |rs| ==>
      rs[k].ulx == left && rs'[k].ulx == left && SameSize(rs'[k], rs[k])
    requires |rs| > 0 ==> rs[0].uly == rs'[0].uly
    requires forall k :: 0 <= k < |rs| - 1 ==>
      rs[k + 1].uly == rs[k].lry + SlotGap && rs'[k + 1].uly == rs'[k].lry + SlotGap
    ensures rs' == rs
  {
    var k := 0;
    while k < |rs|
      invariant 0 <= k <= |rs|
      invariant forall j :: 0 <= j < k ==> rs'[j] == rs[j]
    {
      if k > 0 {
        var j := k - 1;
        assert rs'[j] == rs[j];
        assert rs[j + 1].uly == rs[j].lry + SlotGap;
        assert rs'[j + 1].uly == rs'[j].lry + SlotGap;
      }
      k := k + 1;
    }
  }

  /** What the slots ask for depends on their children alone. */
  lemma SameChildrenSameWidths(hs: seq<Node>, hs': seq<Node>)
    requires |hs'| == |hs|
    requires forall k :: 0 <= k < |hs| ==> hs'[k].children == hs[k].children
    ensures Widths(hs') == Widths(hs)
    ensures Normalizes(hs') == Normalizes(hs)
    ensures ColumnWidth(hs') == ColumnWidth(hs)
  {
    var ws := Widths(hs);
    var ws' := Widths(hs');
    forall k | 0 <= k < |hs|
      ensures ws'[k] == ws[k]
    {
      assert hs'[k].children == hs[k].children;
    }
    assert ws' == ws;
  }

  /** The nodes `hs` with the bounds `rs`. */
  function WithBounds(hs: seq<Node>, rs: seq<Rect>): (r: seq<Node>)
    requires |rs| == |hs|
    ensures |r| == |hs|
    ensures forall k :: 0 <= k < |hs| ==> r[k] == hs[k].(bounds := rs[k])
  {
    seq(|hs|, k requires 0 <= k < |hs| => hs[k].(bounds := rs[k]))
  }

  /** Laying out a column that is already laid out changes nothing. */
  lemma ColumnRectsIdempotent(hs: seq<Node>, left: int)
    ensures ColumnRects(WithBounds(hs, ColumnRects(hs, left)), left) == ColumnRects(hs, left)
  {
    ColumnDeterminedByShape(hs, WithBounds(hs, ColumnRects(hs, left)), left);
  }

  /** The slots read back from the column step's output are the slots with
      their new bounds. */
  lemma SlotNodesOfColumn(cs: seq<Node>, p: seq<nat>, left: int)
    requires ValidOrder(|cs|, p)
    ensures SlotNodes(HandlerColumn(cs, p, left), p)
      == WithBounds(SlotNodes(cs, p), ColumnRects(SlotNodes(cs, p), left))
  {
  }

  /** Re-running the column step on its own output changes nothing. */
  lemma HandlerColumnIdempotent(cs: seq<Node>, p: seq<nat>, left: int)
    requires ValidOrder(|cs|, p)
    ensures HandlerColumn(HandlerColumn(cs, p, left), p, left) == HandlerColumn(cs, p, left)
  {
    var hs := SlotNodes(cs, p);
    var rs := ColumnRects(hs, left);
    var r := HandlerColumn(cs, p, left);
    SlotNodesOfColumn(cs, p, left);
    ColumnRectsIdempotent(hs, left);
    GatherScattered(cs, p, rs);
    ScatterGathered(r, p);
  }

  /** A slot without children always asks for 160, so a column whose last
      slot is childless is always normalised. */
  lemma ChildlessSlotMeasures160(h: Node)
    requires |h.children| == 0
    ensures MeasuredWidth(h) == 160
    ensures forall hs :: |hs| > 0 && hs[|hs| - 1] == h ==> Normalizes(hs)
  {
  }
}

=== FILE: fit.dfy ===
/** `autoResizeLayout`: fitting a container around its arranged children. */
module Fit {
  import opened Sorting
  import opened Geometry
  import opened Shapes

  /** `rightBound`: the right edge of the last child after sorting by right edge. */
  function RightBound(cs: seq<Node>): (m: int)
    requires |cs| > 0
    ensures forall k :: 0 <= k < |cs| ==> cs[k].bounds.lrx <= m
    ensures exists k :: 0 <= k < |cs| && m == cs[k].bounds.lrx
  {
    LastKey(RightEdges(cs))
  }

  /** `lowerBound`: the bottom edge of the last child after sorting by bottom edge. */
  function LowerBound(cs: seq<Node>): (m: int)
    requires |cs| > 0
    ensures forall k :: 0 <= k < |cs| ==> cs[k].bounds.lry <= m
    ensures exists k :: 0 <= k < |cs| && m == cs[k].bounds.lry
  {
    LastKey(BottomEdges(cs))
  }

  /** The container's new bounds. A flow container only grows, each axis
      independently; any other container is set to exactly its children's
      extent plus the margin, which may shrink it. */
  function FitRect(b: Rect, flow: bool, right: int, lower: int): (r: Rect)
    ensures r.ulx == b.ulx && r.uly == b.uly
    ensures !flow ==> Width(r) == right + Margin && Height(r) == lower + Margin
    ensures flow ==>
      && Width(r) >= Width(b) && Width(r) >= right + Margin
      && (Width(r) == Width(b) || Width(r) == right + Margin)
      && Height(r) >= Height(b) && Height(r) >= lower + Margin
      && (Height(r) == Height(b) || Height(r) == lower + Margin)
  {
    if flow then
      var lrx := if b.lrx < b.ulx + right + Margin then b.ulx + right + Margin else b.lrx;
      var lry := if b.lry < b.uly + lower + Margin then b.uly + lower + Margin else b.lry;
      Rect(b.ulx, b.uly, lrx, lry)
    else Rect(b.ulx, b.uly, b.ulx + right + Margin, b.uly + lower + Margin)
  }

  /** `autoResizeLayout` (bpelLayout.js lines 403-441). Only the container's
      own bounds change, and not at all when it has no children. Its upper-
      left corner stays; it encloses every child with the margin to spare. A
      non-flow container fits its children exactly: some child touches the
      margin on each axis. A flow container never shrinks, and where it grows,
      it grows only to that exact fit. */
  function FitBounds(c: Node): (r: Node)
    ensures r == c.(bounds := r.bounds)
    ensures |c.children| == 0 ==> r == c
    ensures r.bounds.ulx == c.bounds.ulx && r.bounds.uly == c.bounds.uly
    ensures forall k :: 0 <= k < |c.children| ==>
      c.children[k].bounds.lrx + Margin <= Width(r.bounds)
      && c.children[k].bounds.lry + Margin <= Height(r.bounds)
    ensures |c.children| > 0 && c.kind != Flow ==>
      && (exists k :: 0 <= k < |c.children| && Width(r.bounds) == c.children[k].bounds.lrx + Margin)
      && (exists k :: 0 <= k < |c.children| && Height(r.bounds) == c.children[k].bounds.lry + Margin)
    ensures c.kind == Flow ==>
      && Width(r.bounds) >= Width(c.bounds) && Height(r.bounds) >= Height(c.bounds)
      && (Width(r.bounds) == Width(c.bounds)
          || exists k :: 0 <= k < |c.children| && Width(r.bounds) == c.children[k].bounds.lrx + Margin)
      && (Height(r.bounds) == Height(c.bounds)
          || exists k :: 0 <= k < |c.children| && Height(r.bounds) == c.children[k].bounds.lry + Margin)
  {
    if |c.children| > 0 then
      c.(bounds := FitRect(c.bounds, c.kind == Flow, RightBound(c.children), LowerBound(c.children)))
    else c
  }

  /** Fitting twice is fitting once. */
  lemma FitBoundsIdempotent(c: Node)
    ensures FitBounds(FitBounds(c)) == FitBounds(c)
  {
  }

  /** A flow container already large enough for its children keeps its
      size exactly. */
  lemma FlowGrowOnly(c: Node)
    requires c.kind == Flow
    requires forall k :: 0 <= k < |c.children| ==>
      c.children[k].bounds.lrx + Margin <= Width(c.bounds)
      && c.children[k].bounds.lry + Margin <= Height(c.bounds)
    ensures FitBounds(c) == c
  {
    var r := FitBounds(c);
    assert Width(r.bounds) == Width(c.bounds);
    assert Height(r.bounds) == Height(c.bounds);
  }

  /** Upper-left corner clamped to at least (30, 30), as
      `handleAutoResizeLayoutEvent` does (bpelLayout.js lines 383-394): the x
      coordinate first, then y, each by `moveTo`. */
  function ClampToMargin(b: Rect): (r: Rect)
    ensures SameSize(r, b)
    ensures r.ulx >= Margin && r.uly >= Margin
    ensures b.ulx >= Margin ==> r.ulx == b.ulx
    ensures b.uly >= Margin ==> r.uly == b.uly
    ensures b.ulx < Margin ==> r.ulx == Margin
    ensures b.uly < Margin ==> r.uly == Margin
  {
    var b1 := if b.ulx < Margin then MoveTo(b, Margin, b.uly) else b;
    if b1.uly < Margin then MoveTo(b1, b1.ulx, Margin) else b1
  }

  /** Clamping a corner that is already clamped changes nothing. */
  lemma ClampIdempotent(b: Rect)
    ensures ClampToMargin(ClampToMargin(b)) == ClampToMargin(b)
    ensures b.ulx >= Margin && b.uly >= Margin ==> ClampToMargin(b) == b
  {
  }
}

=== FILE: geometry.dfy ===
/** Axis-aligned rectangles in a container's coordinate space: the ORYX
    `Bounds` object reduced to its two corners, with integer coordinates. */
module Geometry {

  /** Distance from a container's origin to its first child, between
      consecutive children, and from the last child to the container's edge. */
  const Margin: int := 30

  datatype Rect = Rect(ulx: int, uly: int, lrx: int, lry: int)

  function Width(b: Rect): int {
    b.lrx - b.ulx
  }

  function Height(b: Rect): int {
    b.lry - b.uly
  }

  /** Neither dimension is negative. */
  predicate WellFormed(b: Rect) {
    Width(b) >= 0 && Height(b) >= 0
  }

  predicate SameSize(a: Rect, b: Rect) {
    Width(a) == Width(b) && Height(a) == Height(b)
  }

  /** `Bounds.moveTo`: translates both corners so that the upper-left one
      lands on (x, y). */
  function MoveTo(b: Rect, x: int, y: int): (r: Rect)
    ensures r.ulx == x && r.uly == y
    ensures SameSize(r, b)
  {
    Rect(x, y, x + Width(b), y + Height(b))
  }

  /** A move is determined by its target: moving to where the rectangle
      already is changes nothing, and moving twice is moving once. */
  lemma MoveToCharacterised(b: Rect, x: int, y: int)
    ensures MoveTo(b, b.ulx, b.uly) == b
    ensures MoveTo(MoveTo(b, x, y), x, y) == MoveTo(b, x, y)
    ensures WellFormed(b) ==> WellFormed(MoveTo(b, x, y))
  {
  }
}

=== FILE: layout.dfy ===
/** The plugin's five layout events and what each does to a container: the
    composite layout (main activity left, handler slots right), the vertical
    and horizontal layouts, the single-child layout and the auto-resize
    layout. Every one of them skips a container whose "oryx-autolayout"
    property switches layout off, and every one ends by fitting the
    container around its children. */
module Layout {
  import opened Seqs
  import opened Geometry
  import opened Shapes
  import opened Partition
  import opened Packing
  import opened Arrange
  import opened Column
  import opened Fit

  /** The events the plugin registers a handler for (`construct`,
      bpelLayout.js lines 36-40). */
  datatype LayoutEvent =
    | BpelLayout
    | BpelVertical
    | BpelHorizontal
    | BpelSingleChild
    | BpelAutoResize

  /** The opening of every handler (bpelLayout.js lines 51-63, 248-260,
      299-311, 352-365 and 376-381): the guard on the property, then, for
      every event except auto-resize, the early return on a container without
      children (`resetBounds` does nothing). */
  function Handle(e: LayoutEvent, c: Node): (r: Node)
    ensures |r.children| == |c.children|
  {
    if !AutoLayoutRequired(c) then c
    else if e.BpelAutoResize? then LayoutAutoResize(c)
    else if |c.children| == 0 then c
    else
      match e
      case BpelLayout => LayoutComposite(c)
      case BpelVertical => LayoutLinear(c, Vertical)
      case BpelHorizontal => LayoutLinear(c, Horizontal)
      case BpelSingleChild => LayoutSingleChild(c)
      case BpelAutoResize => c
  }

  /** A container is left exactly as it is when layout is switched off for
      it or when it has no children, whichever event arrives. */
  lemma HandleSkips(e: LayoutEvent, c: Node)
    ensures !AutoLayoutRequired(c) ==> Handle(e, c) == c
    ensures |c.children| == 0 ==> Handle(e, c) == c
  {
    if AutoLayoutRequired(c) && |c.children| == 0 && e.BpelAutoResize? {
      assert LayoutAutoResize(c).children == c.children;
    }
  }

  /** Every child keeps its kind, role and properties; layout only ever
      changes bounds. */
  predicate OnlyBoundsChange(c: Node, r: Node) {
    && r.kind == c.kind && r.lastChild == c.lastChild && r.autolayout == c.autolayout
    && |r.children| == |c.children|
    && forall i :: 0 <= i < |c.children| ==> r.children[i] == c.children[i].(bounds := r.children[i].bounds)
  }

  /** The children are all positioned before the container is fitted: the
      result is the container with the new children, fitted around them. */
  predicate FittedAround(c: Node, r: Node) {
    r == FitBounds(c.(children := r.children))
  }

  // ----- vertical and horizontal layouts -----

  /** `handleLayoutVerticalEvent` and `handleLayoutHorizontalEvent`
      (bpelLayout.js lines 262-292 and 313-343): arrange all children along
      the axis, then fit the container (lines 293 and 345). */
  function LayoutLinear(c: Node, a: Axis): (r: Node)
    ensures r == c.(children := r.children, bounds := r.bounds)
    ensures |r.children| == |c.children|
    ensures Packed(r.children, LinearOrder(c, a), a)
  {
    FitBounds(c.(children := ArrangeGroup(c.children, Indices(|c.children|), a).children))
  }

  /** The order in which a linear layout packs the children. */
  function LinearOrder(c: Node, a: Axis): seq<nat> {
    ArrangeGroup(c.children, Indices(|c.children|), a).order
  }

  /** The packing order lists every child exactly once. */
  lemma LinearOrderCovers(c: Node, a: Axis)
    ensures |LinearOrder(c, a)| == |c.children|
    ensures ValidOrder(|c.children|, LinearOrder(c, a))
    ensures forall i :: 0 <= i < |c.children| ==> i in LinearOrder(c, a)
    ensures forall i :: 0 <= i < |c.children| ==>
      var r := ArrangeGroup(c.children, Indices(|c.children|), a).children;
      r[i] == c.children[i].(bounds := r[i].bounds) && SameSize(r[i].bounds, c.children[i].bounds)
  {
    var o := Indices(|c.children|);
    var o1 := LinearOrder(c, a);
    PermutedOrderValid(|c.children|, o, o1);
    PermutedSameMembers(o, o1);
    forall i | 0 <= i < |c.children|
      ensures i in o1
      ensures var r := ArrangeGroup(c.children, o, a).children;
        r[i] == c.children[i].(bounds := r[i].bounds) && SameSize(r[i].bounds, c.children[i].bounds)
    {
      assert o[i] == i;
      ArrangeGroupFrame(c.children, o, a, i);
    }
  }

  /** A linear layout fits the container around the arranged children. */
  lemma LayoutLinearFitted(c: Node, a: Axis)
    ensures FittedAround(c, LayoutLinear(c, a))
  {
  }

  /** A linear layout changes only the children's positions, never their
      sizes. */
  lemma LayoutLinearFrame(c: Node, a: Axis)
    ensures var r := LayoutLinear(c, a);
      && OnlyBoundsChange(c, r)
      && forall i :: 0 <= i < |c.children| ==> SameSize(r.children[i].bounds, c.children[i].bounds)
  {
    LinearOrderCovers(c, a);
  }

  /** With one child declaring the lastChild role, a linear layout places it
      after all its siblings. */
  lemma LayoutLinearLastChildLast(c: Node, a: Axis, i: nat)
    requires forall k :: 0 <= k < |c.children| ==> WellFormed(c.children[k].bounds)
    requires i < |c.children| && c.children[i].lastChild
    requires forall j :: 0 <= j < |c.children| && j != i ==> !c.children[j].lastChild
    ensures var r := LayoutLinear(c, a);
      forall j :: 0 <= j < |c.children| && j != i ==>
        Key(r.children[j].bounds, a) < Key(r.children[i].bounds, a)
  {
    var o := Indices(|c.children|);
    assert o[i] == i;
    ArrangeGroupLastChildLast(c.children, o, a, i);
    forall j | 0 <= j < |c.children| && j != i
      ensures Key(LayoutLinear(c, a).children[j].bounds, a) < Key(LayoutLinear(c, a).children[i].bounds, a)
    {
      assert o[j] == j;
    }
  }

  /** Laying out again changes nothing, for well-formed children of which at
      most one declares lastChild. */
  lemma LayoutLinearIdempotent(c: Node, a: Axis)
    requires forall k :: 0 <= k < |c.children| ==> WellFormed(c.children[k].bounds)
    requires AtMostOneLastChild(c.children, Indices(|c.children|))
    ensures LayoutLinear(LayoutLinear(c, a), a) == LayoutLinear(c, a)
  {
    var r := LayoutLinear(c, a);
    LinearChildrenFixed(c, a);
    LayoutLinearFitted(r, a);
    LayoutLinearFitted(c, a);
    assert r.(children := r.children) == r;
    FitBoundsIdempotent(c.(children := r.children));
  }

  lemma LinearChildrenFixed(c: Node, a: Axis)
    requires forall k :: 0 <= k < |c.children| ==> WellFormed(c.children[k].bounds)
    requires AtMostOneLastChild(c.children, Indices(|c.children|))
    ensures var r := LayoutLinear(c, a).children;
      ArrangeGroup(r, Indices(|r|), a).children == r
  {
    ArrangeGroupIdempotent(c.children, Indices(|c.children|), a);
  }

  // ----- single-child layout -----

  /** `handleSingleChildLayoutEvent` (bpelLayout.js lines 367-369): the first
      child moves to (30, 30); then the container is fitted. */
  function LayoutSingleChild(c: Node): (r: Node)
    requires |c.children| > 0
    ensures OnlyBoundsChange(c, r)
    ensures r.children[0].bounds.ulx == Margin && r.children[0].bounds.uly == Margin
    ensures SameSize(r.children[0].bounds, c.children[0].bounds)
    ensures forall i :: 1 <= i < |c.children| ==> r.children[i] == c.children[i]
  {
    var cs := c.children;
    FitBounds(c.(children := cs[0 := cs[0].(bounds := MoveTo(cs[0].bounds, Margin, Margin))]))
  }

  lemma LayoutSingleChildIdempotent(c: Node)
    requires |c.children| > 0
    ensures LayoutSingleChild(LayoutSingleChild(c)) == LayoutSingleChild(c)
  {
    var r := LayoutSingleChild(c);
    var cs := r.children;
    assert cs[0 := cs[0].(bounds := MoveTo(cs[0].bounds, Margin, Margin))] == cs;
    FitBoundsIdempotent(c.(children := cs));
  }

  // ----- auto-resize layout -----

  function ClampAll(cs: seq<Node>): (r: seq<Node>)
    ensures |r| == |cs|
    ensures forall i :: 0 <= i < |cs| ==> r[i] == cs[i].(bounds := ClampToMargin(cs[i].bounds))
  {
    seq(|cs|, i requires 0 <= i < |cs| => cs[i].(bounds := ClampToMargin(cs[i].bounds)))
  }

  /** `handleAutoResizeLayoutEvent` (bpelLayout.js lines 383-397): every
      child's upper-left corner is pushed to at least (30, 30), keeping its
      size; then the container is fitted. There is no early return on an empty
      container here. */
  function LayoutAutoResize(c: Node): (r: Node)
    ensures OnlyBoundsChange(c, r)
    ensures forall i :: 0 <= i < |c.children| ==>
      && r.children[i].bounds.ulx >= Margin && r.children[i].bounds.uly >= Margin
      && SameSize(r.children[i].bounds, c.children[i].bounds)
      && (c.children[i].bounds.ulx >= Margin && c.children[i].bounds.uly >= Margin
          ==> r.children[i] == c.children[i])
  {
    FitBounds(c.(children := ClampAll(c.children)))
  }

  lemma LayoutAutoResizeIdempotent(c: Node)
    ensures LayoutAutoResize(LayoutAutoResize(c)) == LayoutAutoResize(c)
  {
    var r := LayoutAutoResize(c);
    assert ClampAll(r.children) == r.children;
    FitBoundsIdempotent(c.(children := r.children));
  }

  // ----- composite layout -----

  /** The ordinary children as the composite layout arranges them. */
  function CompositeArranged(cs: seq<Node>): (arr: Arranged)
    ensures |arr.children| == |cs|
    ensures ValidOrder(|cs|, arr.order)
  {
    ArrangeGroup(cs, Ordinary(|cs|, FindSlots(cs)), Vertical)
  }

  /** The widths of the nodes at the positions `o`. */
  function GroupWidths(cs: seq<Node>, o: seq<nat>): (ws: seq<int>)
    requires forall k :: 0 <= k < |o| ==> o[k] < |cs|
    ensures |ws| == |o|
    ensures forall k :: 0 <= k < |o| ==> ws[k] == Width(cs[o[k]].bounds)
  {
    seq(|o|, k requires 0 <= k < |o| => Width(cs[o[k]].bounds))
  }

  /** `nextLeftBound` in `handleLayoutEvent` (bpelLayout.js lines 107-130), a
      margin either side of the widest ordinary child. */
  function HandlerLeft(cs: seq<Node>, o: seq<nat>): (left: int)
    requires forall k :: 0 <= k < |o| ==> o[k] < |cs|
    ensures left >= Margin + Margin
    ensures forall k :: 0 <= k < |o| ==> Margin + Width(cs[o[k]].bounds) + Margin <= left
    ensures left == Margin + Margin
      || exists k :: 0 <= k < |o| && left == Margin + Width(cs[o[k]].bounds) + Margin
  {
    var ws := GroupWidths(cs, o);
    var m := FoldMax(0, ws);
    assert m == 0 || exists k :: 0 <= k < |o| && m == ws[k];
    Margin + m + Margin
  }

  /** The children after the composite layout, before the container is
      fitted: the ordinary children arranged, the slots stacked in a column at
      `nextLeftBound`. */
  function CompositeChildren(cs: seq<Node>): (r: seq<Node>)
    ensures |r| == |cs|
  {
    var arr := CompositeArranged(cs);
    HandlerColumn(arr.children, SlotOrder(cs), HandlerLeft(arr.children, arr.order))
  }

  /** `handleLayoutEvent` (bpelLayout.js lines 65-224): partition the children
      into the handler slots and the ordinary children, arrange the ordinary
      children like the vertical layout, stack the present slots in a column
      whose left edge is a margin either side of the widest ordinary child's
      width, then fit the container. */
  function LayoutComposite(c: Node): (r: Node)
    ensures r == c.(children := r.children, bounds := r.bounds)
    ensures |r.children| == |c.children|
    ensures r.children == CompositeChildren(c.children)
  {
    FitBounds(c.(children := CompositeChildren(c.children)))
  }

  /** The ordinary children are exactly the arranged group, and the slots
      are not among them. */
  lemma CompositeGroups(cs: seq<Node>)
    ensures forall i :: i in CompositeArranged(cs).order <==> 0 <= i < |cs| && !IsSlot(FindSlots(cs), i)
    ensures forall i :: i in SlotOrder(cs) <==> IsSlot(FindSlots(cs), i)
  {
    var o := Ordinary(|cs|, FindSlots(cs));
    PermutedSameMembers(o, CompositeArranged(cs).order);
    PresentIsValidOrder(cs);
  }

  /** No arranged ordinary child is a slot. */
  lemma GroupsDisjoint(cs: seq<Node>)
    ensures var arr := CompositeArranged(cs);
      forall k :: 0 <= k < |arr.order| ==> arr.order[k] < |arr.children| && arr.order[k] !in SlotOrder(cs)
  {
    var arr := CompositeArranged(cs);
    CompositeGroups(cs);
    forall k | 0 <= k < |arr.order|
      ensures arr.order[k] !in SlotOrder(cs)
    {
      assert arr.order[k] in arr.order;
    }
  }

  /** The handler column leaves the ordinary children where the arrangement
      put them. */
  lemma CompositeKeepsOrdinary(cs: seq<Node>)
    ensures var arr := CompositeArranged(cs);
      SameAt(arr.children, CompositeChildren(cs), arr.order)
  {
    var arr := CompositeArranged(cs);
    GroupsDisjoint(cs);
    HandlerColumnFrame(arr.children, SlotOrder(cs), HandlerLeft(arr.children, arr.order), arr.order);
  }

  /** The composite layout packs the ordinary children top-down at the
      margin, in an order that lists each of them once. */
  lemma CompositeOrdinaryPacked(c: Node)
    ensures var arr := CompositeArranged(c.children);
      Packed(LayoutComposite(c).children, arr.order, Vertical)
  {
    var arr := CompositeArranged(c.children);
    CompositeKeepsOrdinary(c.children);
    PackedDependsOnGroup(arr.children, CompositeChildren(c.children), arr.order, Vertical);
  }

  /** The node at `i` comes strictly after every other node of the group
      `o` along the axis. */
  predicate KeyLargestAt(r: seq<Node>, o: seq<nat>, i: nat, a: Axis) {
    && i < |r|
    && forall k :: 0 <= k < |o| ==> o[k] < |r| && (o[k] != i ==> Key(r[o[k]].bounds, a) < Key(r[i].bounds, a))
  }

  /** With one ordinary child declaring the lastChild role, the composite
      layout places it below all the other ordinary children. */
  lemma CompositeLastChildLast(c: Node, i: nat)
    requires var o := Ordinary(|c.children|, FindSlots(c.children));
      && (forall k :: 0 <= k < |o| ==> WellFormed(c.children[o[k]].bounds))
      && UniqueLastChild(c.children, o, i)
    ensures KeyLargestAt(LayoutComposite(c).children, Ordinary(|c.children|, FindSlots(c.children)), i, Vertical)
  {
    var cs := c.children;
    ArrangeGroupLastChildLast(cs, Ordinary(|cs|, FindSlots(cs)), Vertical, i);
    OrdinaryKept(cs);
  }

  /** The handler column leaves every ordinary child as arranged. */
  lemma OrdinaryKept(cs: seq<Node>)
    ensures SameAt(CompositeArranged(cs).children, CompositeChildren(cs), Ordinary(|cs|, FindSlots(cs)))
  {
    var arr := CompositeArranged(cs);
    OrdinaryNotSlot(cs);
    HandlerColumnFrame(arr.children, SlotOrder(cs), HandlerLeft(arr.children, arr.order), Ordinary(|cs|, FindSlots(cs)));
  }

  /** No ordinary child is a slot. */
  lemma OrdinaryNotSlot(cs: seq<Node>)
    ensures var o := Ordinary(|cs|, FindSlots(cs));
      forall k :: 0 <= k < |o| ==> o[k] < |cs| && o[k] !in SlotOrder(cs)
  {
    var o := Ordinary(|cs|, FindSlots(cs));
    CompositeGroups(cs);
    forall k | 0 <= k < |o|
      ensures o[k] !in SlotOrder(cs)
    {
      assert o[k] in o;
    }
  }

  /** The arrangement of the ordinary children never touches a slot. */
  lemma SlotsUntouchedByArrange(cs: seq<Node>)
    ensures SlotNodes(CompositeArranged(cs).children, SlotOrder(cs)) == SlotNodes(cs, SlotOrder(cs))
  {
    var p := SlotOrder(cs);
    var o := Ordinary(|cs|, FindSlots(cs));
    CompositeGroups(cs);
    forall k | 0 <= k < |p|
      ensures CompositeArranged(cs).children[p[k]] == cs[p[k]]
    {
      ArrangeGroupFrame(cs, o, Vertical, p[k]);
    }
  }

  /** The present slots get the column layout of their original bounds, at
      `nextLeftBound`. */
  lemma CompositeSlotBounds(cs: seq<Node>)
    ensures var p := SlotOrder(cs);
      var arr := CompositeArranged(cs);
      var rs := ColumnRects(SlotNodes(cs, p), HandlerLeft(arr.children, arr.order));
      forall k :: 0 <= k < |p| ==> CompositeChildren(cs)[p[k]].bounds == rs[k]
  {
    SlotsUntouchedByArrange(cs);
  }

  /** The left edge of every slot at `p` is at least a margin either side of
      the width of every node of the group `o`. This bounds the slot's x by
      the node's width, not by its right edge: a node away from the left
      margin can still reach past it (`SlotCanOverlapUnmovedChild`). */
  predicate ClearOfGroupWidths(r: seq<Node>, o: seq<nat>, p: seq<nat>) {
    && (forall k :: 0 <= k < |p| ==> p[k] < |r|)
    && (forall j :: 0 <= j < |o| ==> o[j] < |r|)
    && forall k, j :: 0 <= k < |p| && 0 <= j < |o| ==>
      Margin + Width(r[o[j]].bounds) + Margin <= r[p[k]].bounds.ulx
  }

  /** The slots at `p` are stacked top-down from the margin, each one
      `SlotGap` below the previous. */
  predicate StackedFromTop(r: seq<Node>, p: seq<nat>) {
    && (forall k :: 0 <= k < |p| ==> p[k] < |r|)
    && (|p| > 0 ==> r[p[0]].bounds.uly == Margin)
    && forall k :: 0 <= k < |p| - 1 ==> r[p[k + 1]].bounds.uly == r[p[k]].bounds.lry + SlotGap
  }

  /** The nodes at `p` have the same heights in both lists. */
  predicate SameHeightsAt(r: seq<Node>, cs: seq<Node>, p: seq<nat>) {
    forall k :: 0 <= k < |p| ==> p[k] < |r| && p[k] < |cs| && Height(r[p[k]].bounds) == Height(cs[p[k]].bounds)
  }

  /** The nodes at `p` all have width `w`. */
  predicate AllWidth(r: seq<Node>, p: seq<nat>, w: int) {
    forall k :: 0 <= k < |p| ==> p[k] < |r| && Width(r[p[k]].bounds) == w
  }

  /** Every handler slot's left edge is at least a margin either side of
      every ordinary child's width. */
  lemma CompositeHandlersClearOfOrdinary(c: Node)
    ensures ClearOfGroupWidths(LayoutComposite(c).children, CompositeArranged(c.children).order, SlotOrder(c.children))
  {
    var cs := c.children;
    var arr := CompositeArranged(cs);
    var p := SlotOrder(cs);
    var r := CompositeChildren(cs);
    CompositeSlotsAtLeft(cs);
    CompositeKeepsOrdinary(cs);
    forall k, j | 0 <= k < |p| && 0 <= j < |arr.order|
      ensures Margin + Width(r[arr.order[j]].bounds) + Margin <= r[p[k]].bounds.ulx
    {
      assert r[arr.order[j]] == arr.children[arr.order[j]];
    }
  }

  /** The rectangles share interior points. */
  predicate Overlap(a: Rect, b: Rect) {
    a.ulx < b.lrx && b.ulx < a.lrx && a.uly < b.lry && b.uly < a.lry
  }

  /** An ordinary child already at the top but away from the left margin. */
  const OffsetChild: Node := Node(Other, false, Rect(200, 30, 300, 80), Undefined, [])

  /** An event-handlers slot without children. */
  const LoneSlot: Node := Node(EventHandlers, false, Rect(0, 0, 50, 50), Undefined, [])

  /** With `OffsetChild` and `LoneSlot`, the slot is the only one present and
      the child is the only ordinary child. */
  lemma OffsetPartition()
    ensures FindSlots([OffsetChild, LoneSlot]) == Slots(Some(1), None, None, None)
    ensures SlotOrder([OffsetChild, LoneSlot]) == [1]
    ensures Ordinary(2, FindSlots([OffsetChild, LoneSlot])) == [0]
  {
    var cs := [OffsetChild, LoneSlot];
    assert FirstTrue(KindFlags(cs, EventHandlers)) == Some(1);
    var o := Ordinary(2, FindSlots(cs));
    assert 0 in o && 1 !in o;
    assert o == [0] by {
      assert o == OrdinaryFrom(2, FindSlots(cs), 0);
    }
  }

  /** `OffsetChild` is already at its stacked height, so arranging it
      leaves it where it is, 200 from the left. */
  lemma OffsetArranged()
    ensures CompositeArranged([OffsetChild, LoneSlot]) == Arranged([OffsetChild, LoneSlot], [0])
  {
    var cs := [OffsetChild, LoneSlot];
    OffsetPartition();
    assert Gather(cs, [0]) == [OffsetChild.bounds];
    assert PackRects([OffsetChild.bounds], Vertical, 0) == [OffsetChild.bounds];
  }

  /** The childless slot alone in a column at 160 is stacked at the top and
      widened to the 160 it measures. */
  lemma LoneSlotColumn()
    ensures ColumnRects([LoneSlot], 160)[0] == Rect(160, 30, 320, 80)
  {
    var hs := [LoneSlot];
    assert hs[0].bounds == Rect(0, 0, 50, 50);
    assert Normalizes(hs) && ColumnWidth(hs) == 160 by {
      assert MeasuredWidth(LoneSlot) == 160;
      ColumnWidthIsLargest(hs);
    }
  }

  /** `nextLeftBound` is 30 + the child's width + 30 = 160. */
  lemma OffsetLeft()
    ensures HandlerLeft([OffsetChild, LoneSlot], [0]) == 160
  {
    assert GroupWidths([OffsetChild, LoneSlot], [0]) == [100];
  }

  /** The slot's column sits at `nextLeftBound`. */
  lemma OffsetSlotBounds()
    ensures CompositeChildren([OffsetChild, LoneSlot])[1].bounds == Rect(160, 30, 320, 80)
  {
    var cs := [OffsetChild, LoneSlot];
    OffsetPartition();
    OffsetArranged();
    OffsetLeft();
    CompositeSlotBounds(cs);
    assert SlotNodes(cs, [1]) == [LoneSlot];
    LoneSlotColumn();
  }

  /** The child the arrangement did not move keeps its bounds. */
  lemma OffsetChildKept()
    ensures CompositeChildren([OffsetChild, LoneSlot])[0] == OffsetChild
  {
    var cs := [OffsetChild, LoneSlot];
    OffsetArranged();
    CompositeKeepsOrdinary(cs);
  }

  /** The composite layout moves the handler column to x = 30 + the child's
      width + 30 = 160, not past the child's right edge: when a child was
      not moved by the arrangement, because it already sat at its stacked
      height, the column can overlap it. */
  lemma SlotCanOverlapUnmovedChild(c: Node)
    requires c.children == [OffsetChild, LoneSlot]
    ensures var r := LayoutComposite(c).children;
      && r[0] == OffsetChild
      && r[1].bounds == Rect(160, 30, 320, 80)
      && Overlap(r[0].bounds, r[1].bounds)
  {
    OffsetChildKept();
    OffsetSlotBounds();
  }

  /** Every present slot's left edge is `nextLeftBound`. */
  lemma CompositeSlotsAtLeft(cs: seq<Node>)
    ensures var arr := CompositeArranged(cs);
      var p := SlotOrder(cs);
      forall k :: 0 <= k < |p| ==> CompositeChildren(cs)[p[k]].bounds.ulx == HandlerLeft(arr.children, arr.order)
  {
    CompositeSlotBounds(cs);
  }

  /** The present slots are stacked top-down from the margin with a gap of
      10. */
  lemma CompositeHandlersStacked(c: Node)
    ensures StackedFromTop(LayoutComposite(c).children, SlotOrder(c.children))
  {
    CompositeSlotBounds(c.children);
  }

  /** Every present slot keeps its height. */
  lemma CompositeHandlersKeepHeight(c: Node)
    ensures SameHeightsAt(LayoutComposite(c).children, c.children, SlotOrder(c.children))
  {
    SlotHeightsKept(c.children);
  }

  lemma SlotHeightsKept(cs: seq<Node>)
    ensures SameHeightsAt(CompositeChildren(cs), cs, SlotOrder(cs))
  {
    var p := SlotOrder(cs);
    var hs := SlotNodes(cs, p);
    var arr := CompositeArranged(cs);
    var rs := ColumnRects(hs, HandlerLeft(arr.children, arr.order));
    var r := CompositeChildren(cs);
    CompositeSlotBounds(cs);
    forall k | 0 <= k < |p|
      ensures p[k] < |r| && p[k] < |cs| && Height(r[p[k]].bounds) == Height(cs[p[k]].bounds)
    {
      assert r[p[k]].bounds == rs[k];
      assert hs[k] == cs[p[k]];
    }
  }

  /** When the last present slot asks for a positive width, every present
      slot ends up exactly as wide as the widest of them asks for. */
  lemma CompositeHandlersAligned(c: Node)
    ensures var hs := SlotNodes(c.children, SlotOrder(c.children));
      Normalizes(hs) ==> AllWidth(LayoutComposite(c).children, SlotOrder(c.children), ColumnWidth(hs))
  {
    CompositeSlotBounds(c.children);
  }

  /** Each node keeps everything but its bounds. */
  predicate SameShapes(cs: seq<Node>, r: seq<Node>) {
    |r| == |cs| && forall i :: 0 <= i < |cs| ==> r[i] == cs[i].(bounds := r[i].bounds)
  }

  /** The composite layout changes only bounds. */
  lemma CompositeChildrenShapes(cs: seq<Node>)
    ensures SameShapes(cs, CompositeChildren(cs))
  {
    var arr := CompositeArranged(cs);
    var o := Ordinary(|cs|, FindSlots(cs));
    var p := SlotOrder(cs);
    var r := CompositeChildren(cs);
    forall i | 0 <= i < |cs|
      ensures r[i] == cs[i].(bounds := r[i].bounds)
    {
      ArrangeGroupFrame(cs, o, Vertical, i);
      if i in p {
        var k :| 0 <= k < |p| && p[k] == i;
        assert r[p[k]] == arr.children[p[k]].(bounds := r[p[k]].bounds);
      }
    }
  }

  /** Running the composite layout on its own output finds the same slots
      and the same ordinary children, already arranged. */
  lemma CompositeArrangedAgain(cs: seq<Node>)
    requires var o := Ordinary(|cs|, FindSlots(cs));
      && (forall k :: 0 <= k < |o| ==> WellFormed(cs[o[k]].bounds))
      && AtMostOneLastChild(cs, o)
    ensures var r := CompositeChildren(cs);
      && FindSlots(r) == FindSlots(cs)
      && CompositeArranged(r) == Arranged(r, CompositeArranged(cs).order)
  {
    var o := Ordinary(|cs|, FindSlots(cs));
    var arr := CompositeArranged(cs);
    var r := CompositeChildren(cs);
    CompositeChildrenShapes(cs);
    FindSlotsByKind(cs, r);
    ArrangeGroupKeepsWellFormed(cs, o, Vertical);
    ArrangeGroupLastChildAtEnd(cs, o, Vertical);
    CompositeKeepsOrdinary(cs);
    ArrangedDependsOnGroup(arr.children, r, arr.order, Vertical);
    ArrangeGroupOnPacked(r, o, arr.order, Vertical);
  }

  /** The column step computes the same left bound the second time. */
  lemma HandlerLeftAgain(cs: seq<Node>, r: seq<Node>, o: seq<nat>)
    requires SameAt(cs, r, o)
    ensures HandlerLeft(r, o) == HandlerLeft(cs, o)
  {
    assert GroupWidths(r, o) == GroupWidths(cs, o);
  }

  /** The children the composite layout produces are a fixed point of it. */
  lemma CompositeChildrenFixed(cs: seq<Node>)
    requires var o := Ordinary(|cs|, FindSlots(cs));
      && (forall k :: 0 <= k < |o| ==> WellFormed(cs[o[k]].bounds))
      && AtMostOneLastChild(cs, o)
    ensures CompositeChildren(CompositeChildren(cs)) == CompositeChildren(cs)
  {
    var arr := CompositeArranged(cs);
    var r := CompositeChildren(cs);
    var p := SlotOrder(cs);
    CompositeArrangedAgain(cs);
    assert SlotOrder(r) == p;
    CompositeKeepsOrdinary(cs);
    HandlerLeftAgain(arr.children, r, arr.order);
    HandlerColumnIdempotent(arr.children, p, HandlerLeft(arr.children, arr.order));
  }

  /** Laying out again changes nothing, when the ordinary children are well
      formed and at most one of them declares lastChild. */
  lemma LayoutCompositeIdempotent(c: Node)
    requires var o := Ordinary(|c.children|, FindSlots(c.children));
      && (forall k :: 0 <= k < |o| ==> WellFormed(c.children[o[k]].bounds))
      && AtMostOneLastChild(c.children, o)
    ensures LayoutComposite(LayoutComposite(c)) == LayoutComposite(c)
  {
    var r := LayoutComposite(c);
    CompositeChildrenFixed(c.children);
    assert r.(children := r.children) == r;
    FitBoundsIdempotent(c.(children := r.children));
  }

  // ----- the five events together -----

  /** Children that arrange stably: none has a negative size and at most
      one declares the lastChild role. */
  predicate Arrangeable(cs: seq<Node>) {
    && (forall i :: 0 <= i < |cs| ==> WellFormed(cs[i].bounds))
    && forall i, j :: 0 <= i < |cs| && 0 <= j < |cs| && cs[i].lastChild && cs[j].lastChild ==> i == j
  }

  lemma ArrangeableGroup(cs: seq<Node>, o: seq<nat>)
    requires Arrangeable(cs) && ValidOrder(|cs|, o)
    ensures forall k :: 0 <= k < |o| ==> WellFormed(cs[o[k]].bounds)
    ensures AtMostOneLastChild(cs, o)
  {
    forall p, q | 0 <= p < |o| && 0 <= q < |o| && cs[o[p]].lastChild && cs[o[q]].lastChild
      ensures p == q
    {
      assert o[p] == o[q];
    }
  }

  /** Whatever the event, the container keeps its kind, role and properties,
      and each child keeps everything but its bounds. */
  lemma HandleOnlyMovesChildren(e: LayoutEvent, c: Node)
    ensures OnlyBoundsChange(c, Handle(e, c))
  {
    if AutoLayoutRequired(c) && !e.BpelAutoResize? && |c.children| > 0 {
      match e
      case BpelLayout => CompositeChildrenShapes(c.children);
      case BpelVertical => LayoutLinearFrame(c, Vertical);
      case BpelHorizontal => LayoutLinearFrame(c, Horizontal);
      case BpelSingleChild =>
    }
  }

  /** The container encloses every child with the margin to spare on the
      right and at the bottom. */
  predicate Encloses(r: Node) {
    forall k :: 0 <= k < |r.children| ==>
      r.children[k].bounds.lrx + Margin <= Width(r.bounds)
      && r.children[k].bounds.lry + Margin <= Height(r.bounds)
  }

  lemma FittedEncloses(c: Node, r: Node)
    requires FittedAround(c, r)
    ensures Encloses(r)
  {
  }

  /** After any event that lays the container out, the container encloses
      every child with the margin to spare. */
  lemma HandleEncloses(e: LayoutEvent, c: Node)
    requires AutoLayoutRequired(c) && |c.children| > 0
    ensures Encloses(Handle(e, c))
  {
    var r := Handle(e, c);
    match e
    case BpelLayout =>
      assert FittedAround(c, r);
      FittedEncloses(c, r);
    case BpelVertical =>
      LayoutLinearFitted(c, Vertical);
      FittedEncloses(c, r);
    case BpelHorizontal =>
      LayoutLinearFitted(c, Horizontal);
      FittedEncloses(c, r);
    case BpelSingleChild =>
      assert FittedAround(c, r);
      FittedEncloses(c, r);
    case BpelAutoResize =>
      assert FittedAround(c, r);
      FittedEncloses(c, r);
  }

  /** Handling the same event twice is handling it once, for children that
      arrange stably. */
  lemma HandleIdempotent(e: LayoutEvent, c: Node)
    requires Arrangeable(c.children)
    ensures Handle(e, Handle(e, c)) == Handle(e, c)
  {
    HandleOnlyMovesChildren(e, c);
    if AutoLayoutRequired(c) {
      if e.BpelAutoResize? {
        LayoutAutoResizeIdempotent(c);
      } else if |c.children| > 0 {
        match e
        case BpelLayout =>
          ArrangeableGroup(c.children, Ordinary(|c.children|, FindSlots(c.children)));
          LayoutCompositeIdempotent(c);
        case BpelVertical =>
          ArrangeableGroup(c.children, Indices(|c.children|));
          LayoutLinearIdempotent(c, Vertical);
        case BpelHorizontal =>
          ArrangeableGroup(c.children, Indices(|c.children|));
          LayoutLinearIdempotent(c, Horizontal);
        case BpelSingleChild => LayoutSingleChildIdempotent(c);
      }
    }
  }
}

=== FILE: packing.dfy ===
/** Packing a sorted run of siblings along one axis: the loop shared by the
    vertical arrangement, the horizontal arrangement and the ordinary column
    of the composite arrangement. */
module Packing {
  import opened Geometry

  datatype Axis = Vertical | Horizontal

  /** The coordinate siblings are sorted and packed by. */
  function Key(b: Rect, a: Axis): int {
    match a
    case Vertical => b.uly
    case Horizontal => b.ulx
  }

  /** The other upper-left coordinate. */
  function Cross(b: Rect, a: Axis): int {
    match a
    case Vertical => b.ulx
    case Horizontal => b.uly
  }

  /** The size along the packing axis. */
  function Extent(b: Rect, a: Axis): int {
    match a
    case Vertical => Height(b)
    case Horizontal => Width(b)
  }

  /** `moveTo(30, p)` when packing vertically, `moveTo(p, 30)` horizontally. */
  function PlaceAt(b: Rect, a: Axis, p: int): (r: Rect)
    ensures Key(r, a) == p && Cross(r, a) == Margin
    ensures SameSize(r, b)
  {
    match a
    case Vertical => MoveTo(b, Margin, p)
    case Horizontal => MoveTo(b, p, Margin)
  }

  /** Packs `rs` in the given order. `prev` is the end of the previous
      sibling (`lastUpperYPosition` / `lastLeftXPosition`, 0 at the start).
      A sibling whose key already equals its packed key is not moved at all;
      any other sibling is moved to its packed key with the cross coordinate
      set to the margin. */
  function PackRects(rs: seq<Rect>, a: Axis, prev: int): (r: seq<Rect>)
    ensures |r| == |rs|
    ensures forall k :: 0 <= k < |rs| ==> SameSize(r[k], rs[k])
    ensures |rs| > 0 ==> Key(r[0], a) == prev + Margin
    ensures forall k :: 0 <= k < |rs| - 1 ==>
      Key(r[k + 1], a) == Key(r[k], a) + Extent(rs[k], a) + Margin
    ensures forall k :: 0 <= k < |rs| ==>
      if Key(rs[k], a) == Key(r[k], a) then r[k] == rs[k] else Cross(r[k], a) == Margin
    decreases |rs|
  {
    if |rs| == 0 then []
    else
      var p := prev + Margin;
      var b := if Key(rs[0], a) != p then PlaceAt(rs[0], a, p) else rs[0];
      var tail := PackRects(rs[1..], a, p + Extent(rs[0], a));
      assert forall k :: 1 <= k < |rs| ==> rs[k] == rs[1..][k - 1];
      [b] + tail
  }

  /** Each rectangle starts a margin past the end of the one before it, the
      first a margin past `prev`. */
  predicate Chained(rs: seq<Rect>, a: Axis, prev: int) {
    && (|rs| > 0 ==> Key(rs[0], a) == prev + Margin)
    && forall k :: 0 <= k < |rs| - 1 ==>
      Key(rs[k + 1], a) == Key(rs[k], a) + Extent(rs[k], a) + Margin
  }

  /** Packing chains the siblings. */
  lemma PackRectsChained(rs: seq<Rect>, a: Axis, prev: int)
    ensures Chained(PackRects(rs, a, prev), a, prev)
  {
    var r := PackRects(rs, a, prev);
    forall k | 0 <= k < |rs| - 1
      ensures Extent(r[k], a) == Extent(rs[k], a)
    {
      assert SameSize(r[k], rs[k]);
    }
  }

  /** Packing is idempotent: on already packed siblings no sibling moves. */
  lemma PackRectsIdempotent(rs: seq<Rect>, a: Axis, prev: int)
    ensures PackRects(PackRects(rs, a, prev), a, prev) == PackRects(rs, a, prev)
  {
    PackRectsChained(rs, a, prev);
    PackedIsFixed(PackRects(rs, a, prev), a, prev);
  }

  /** Rectangles that are already packed from `prev` are a fixed point of
      packing: no sibling moves. */
  lemma PackedIsFixed(rs: seq<Rect>, a: Axis, prev: int)
    requires Chained(rs, a, prev)
    ensures PackRects(rs, a, prev) == rs
  {
    var r := PackRects(rs, a, prev);
    var k := 0;
    while k < |rs|
      invariant 0 <= k <= |rs|
      invariant forall j :: 0 <= j < k ==> r[j] == rs[j]
    {
      if k > 0 {
        var j := k - 1;
        assert r[j] == rs[j];
        assert Key(r[j + 1], a) == Key(r[j], a) + Extent(rs[j], a) + Margin;
      }
      k := k + 1;
    }
  }
}

=== FILE: partition.dfy ===
/** Splitting a container's children into the four handler slots and the
    remaining ordinary children, as the composite layout does before it
    arranges anything. */
module Partition {
  import opened Seqs
  import opened Shapes

  /** Positions of the children found for each handler slot. */
  datatype Slots = Slots(
    event: Option<nat>,
    fault: Option<nat>,
    compensation: Option<nat>,
    termination: Option<nat>)

  /** Whether each child has kind `k`. */
  function KindFlags(cs: seq<Node>, k: Kind): (flags: seq<bool>)
    ensures |flags| == |cs|
    ensures forall j :: 0 <= j < |cs| ==> (flags[j] <==> cs[j].kind == k)
  {
    seq(|cs|, j requires 0 <= j < |cs| => cs[j].kind == k)
  }

  /** `slot` is where `Enumerable.find` stops when looking for kind `k`. */
  predicate FirstOfKind(cs: seq<Node>, slot: Option<nat>, k: Kind) {
    match slot
    case None => forall j :: 0 <= j < |cs| ==> cs[j].kind != k
    case Some(i) =>
      && i < |cs|
      && cs[i].kind == k
      && forall j :: 0 <= j < i ==> cs[j].kind != k
  }

  /** Each slot holds the first child of its kind, if any. */
  function FindSlots(cs: seq<Node>): (s: Slots)
    ensures FirstOfKind(cs, s.event, EventHandlers)
    ensures FirstOfKind(cs, s.fault, FaultHandlers)
    ensures FirstOfKind(cs, s.compensation, CompensationHandler)
    ensures FirstOfKind(cs, s.termination, TerminationHandler)
  {
    Slots(
      FirstTrue(KindFlags(cs, EventHandlers)),
      FirstTrue(KindFlags(cs, FaultHandlers)),
      FirstTrue(KindFlags(cs, CompensationHandler)),
      FirstTrue(KindFlags(cs, TerminationHandler)))
  }

  predicate IsSlot(s: Slots, i: nat) {
    s.event == Some(i) || s.fault == Some(i) || s.compensation == Some(i) || s.termination == Some(i)
  }

  /** The ordinary children from position `from` on: every child that is not
      one of the found slots, in child-list order. */
  function OrdinaryFrom(n: nat, s: Slots, from: nat): (o: seq<nat>)
    ensures forall k :: 0 <= k < |o| ==> from <= o[k] < n && !IsSlot(s, o[k])
    ensures forall i :: from <= i < n && !IsSlot(s, i) ==> i in o
    ensures forall a, b :: 0 <= a < b < |o| ==> o[a] < o[b]
    decreases n - from
  {
    if from >= n then []
    else if IsSlot(s, from) then OrdinaryFrom(n, s, from + 1)
    else [from] + OrdinaryFrom(n, s, from + 1)
  }

  /** `otherElements`: the positions among `n` children that are none of
      the four slots, in child-list order. */
  function Ordinary(n: nat, s: Slots): (o: seq<nat>)
    ensures ValidOrder(n, o)
    ensures forall i :: 0 <= i < n ==> (i in o <==> !IsSlot(s, i))
  {
    OrdinaryFrom(n, s, 0)
  }

  function SlotSeq(slot: Option<nat>): seq<nat> {
    match slot
    case None => []
    case Some(i) => [i]
  }

  /** The present slots in the fixed order event, fault, compensation,
      termination. */
  function Present(s: Slots): seq<nat> {
    SlotSeq(s.event) + SlotSeq(s.fault) + SlotSeq(s.compensation) + SlotSeq(s.termination)
  }

  /** Every present slot is a position below `n`, and no two slots share a
      position. */
  predicate SlotsDisjoint(n: nat, s: Slots) {
    var ps := [s.event, s.fault, s.compensation, s.termination];
    && (forall g :: 0 <= g < 4 && ps[g].Some? ==> ps[g].value < n)
    && forall g, h :: 0 <= g < h < 4 && ps[g].Some? && ps[h].Some? ==> ps[g].value != ps[h].value
  }

  /** Disjoint slots list as a valid order of exactly the slot positions. */
  lemma PresentValid(n: nat, s: Slots)
    requires SlotsDisjoint(n, s)
    ensures ValidOrder(n, Present(s))
    ensures forall i :: i in Present(s) <==> IsSlot(s, i)
  {
    var ps := [s.event, s.fault, s.compensation, s.termination];
    assert ps[0] == s.event && ps[1] == s.fault && ps[2] == s.compensation && ps[3] == s.termination;
  }

  /** The present slots of a real partition are distinct children: no child
      has two kinds. */
  lemma PresentIsValidOrder(cs: seq<Node>)
    ensures ValidOrder(|cs|, Present(FindSlots(cs)))
    ensures forall i :: i in Present(FindSlots(cs)) <==> IsSlot(FindSlots(cs), i)
  {
    FindSlotsDisjoint(cs);
    PresentValid(|cs|, FindSlots(cs));
  }

  /** The four slots found hold children of four different kinds, so no
      two of them coincide. */
  lemma FindSlotsDisjoint(cs: seq<Node>)
    ensures SlotsDisjoint(|cs|, FindSlots(cs))
  {
    var s := FindSlots(cs);
    var ps := [s.event, s.fault, s.compensation, s.termination];
    var ks := [EventHandlers, FaultHandlers, CompensationHandler, TerminationHandler];
    assert forall g :: 0 <= g < 4 ==> FirstOfKind(cs, ps[g], ks[g]);
    forall g, h | 0 <= g < h < 4 && ps[g].Some? && ps[h].Some?
      ensures ps[g].value != ps[h].value
    {
      assert cs[ps[g].value].kind == ks[g] && cs[ps[h].value].kind == ks[h];
    }
  }

  /** The positions of the present slots of `cs`, in column order. */
  function SlotOrder(cs: seq<Node>): (p: seq<nat>)
    ensures ValidOrder(|cs|, p)
    ensures |p| <= 4
  {
    PresentIsValidOrder(cs);
    Present(FindSlots(cs))
  }

  /** Every child lands in exactly one group: one of the four slots, or the
      ordinary children. */
  lemma PartitionIsExact(cs: seq<Node>, i: nat)
    requires i < |cs|
    ensures var s := FindSlots(cs);
      var groups := [s.event == Some(i), s.fault == Some(i), s.compensation == Some(i),
                     s.termination == Some(i), i in Ordinary(|cs|, s)];
      (exists g :: 0 <= g < 5 && groups[g])
      && forall g, h :: 0 <= g < h < 5 ==> !(groups[g] && groups[h])
  {
    var s := FindSlots(cs);
    var groups := [s.event == Some(i), s.fault == Some(i), s.compensation == Some(i),
                   s.termination == Some(i), i in Ordinary(|cs|, s)];
    if !IsSlot(s, i) {
      assert groups[4];
    } else if s.event == Some(i) {
      assert groups[0];
    } else if s.fault == Some(i) {
      assert groups[1];
    } else if s.compensation == Some(i) {
      assert groups[2];
    } else {
      assert groups[3];
    }
  }

  /** A second child of a handler kind is not a slot: it is arranged with the
      ordinary children. */
  lemma SecondHandlerIsOrdinary(cs: seq<Node>, i: nat, j: nat)
    requires i < j < |cs| && cs[i].kind == cs[j].kind
    requires cs[j].kind != Flow && cs[j].kind != Other
    ensures j in Ordinary(|cs|, FindSlots(cs))
  {
  }

  /** The slots depend only on the children's kinds, so rearranging bounds
      never changes them. */
  lemma FindSlotsByKind(cs: seq<Node>, cs': seq<Node>)
    requires |cs'| == |cs|
    requires forall i :: 0 <= i < |cs| ==> cs'[i].kind == cs[i].kind
    ensures FindSlots(cs') == FindSlots(cs)
  {
    assert KindFlags(cs', EventHandlers) == KindFlags(cs, EventHandlers);
    assert KindFlags(cs', FaultHandlers) == KindFlags(cs, FaultHandlers);
    assert KindFlags(cs', CompensationHandler) == KindFlags(cs, CompensationHandler);
    assert KindFlags(cs', TerminationHandler) == KindFlags(cs, TerminationHandler);
  }
}

=== FILE: seqs.dfy ===
/** Small sequence utilities the layout rules are built from: an optional value,
    first-match search, the two maximum folds the layout code uses, and
    distinctness of index lists. */
module Seqs {

  /** An optional value; `None` plays the part of JavaScript's `undefined`. */
  datatype Option<+T> = None | Some(value: T)

  /** Position of the first `true`; the value Prototype's `Enumerable.find`
      returns, as an index, when `flags[k]` says whether the k-th element
      matches. */
  function FirstTrue(flags: seq<bool>): (r: Option<nat>)
    ensures r.Some? ==> r.value < |flags| && flags[r.value]
    ensures r.Some? ==> forall k :: 0 <= k < r.value ==> !flags[k]
    ensures r.None? ==> forall k :: 0 <= k < |flags| ==> !flags[k]
  {
    if |flags| == 0 then None
    else if flags[0] then Some(0)
    else
      match FirstTrue(flags[1..])
      case None =>
        assert forall k :: 1 <= k < |flags| ==> flags[k] == flags[1..][k - 1];
        None
      case Some(k) =>
        assert forall j :: 1 <= j <= k ==> flags[j] == flags[1..][j - 1];
        Some(k + 1)
  }

  /** The running maximum `acc = x > acc ? x : acc` folded left over `xs`. */
  function FoldMax(acc: int, xs: seq<int>): (m: int)
    ensures acc <= m
    ensures forall k :: 0 <= k < |xs| ==> xs[k] <= m
    ensures m == acc || m in xs
    decreases |xs|
  {
    if |xs| == 0 then acc
    else
      var m := FoldMax(if xs[0] > acc then xs[0] else acc, xs[1..]);
      assert forall k :: 1 <= k < |xs| ==> xs[k] == xs[1..][k - 1];
      m
  }

  /** `x` is the last element of `o`. */
  predicate EndsWith(o: seq<nat>, x: nat) {
    |o| > 0 && o[|o| - 1] == x
  }

  predicate Distinct<T(==)>(s: seq<T>) {
    forall i, j :: 0 <= i < j < |s| ==> s[i] != s[j]
  }

  lemma {:induction false} DistinctCounts<T>(s: seq<T>)
    requires Distinct(s)
    ensures forall x :: multiset(s)[x] <= 1
  {
    if |s| > 0 {
      assert s == [s[0]] + s[1..];
      assert Distinct(s[1..]) by {
        forall i, j | 0 <= i < j < |s[1..]|
          ensures s[1..][i] != s[1..][j]
        {
          assert s[1..][i] == s[i + 1] && s[1..][j] == s[j + 1];
        }
      }
      DistinctCounts(s[1..]);
      assert s[0] !in s[1..] by {
        forall k | 0 <= k < |s[1..]|
          ensures s[1..][k] != s[0]
        {
          assert s[1..][k] == s[k + 1];
        }
      }
      assert multiset(s) == multiset{s[0]} + multiset(s[1..]);
    }
  }

  /** An element repeated at two positions is counted at least twice. */
  lemma RepeatCounted<T>(t: seq<T>, i: nat, j: nat)
    requires i < j < |t|
    ensures t[i] == t[j] ==> multiset(t)[t[i]] >= 2
  {
    assert t == t[..j] + t[j..];
    assert t[..j][i] == t[i];
    assert t[j..][0] == t[j];
    assert multiset(t)[t[i]] == multiset(t[..j])[t[i]] + multiset(t[j..])[t[i]];
  }

  lemma CountsDistinct<T>(t: seq<T>)
    requires forall x :: multiset(t)[x] <= 1
    ensures Distinct(t)
  {
    forall i, j | 0 <= i < j < |t|
      ensures t[i] != t[j]
    {
      RepeatCounted(t, i, j);
    }
  }

  /** A permutation of a list without repetitions has no repetitions. */
  lemma DistinctPermutation<T>(s: seq<T>, t: seq<T>)
    requires multiset(s) == multiset(t)
    requires Distinct(s)
    ensures Distinct(t)
  {
    DistinctCounts(s);
    CountsDistinct(t);
  }

  /** A list of positions in a list of length `n`, none repeated. */
  predicate ValidOrder(n: nat, o: seq<nat>) {
    (forall k :: 0 <= k < |o| ==> o[k] < n) && Distinct(o)
  }

  /** The positions 0, 1, ..., n-1, in order. */
  function Indices(n: nat): (o: seq<nat>)
    ensures |o| == n
    ensures forall k :: 0 <= k < n ==> o[k] == k
    ensures ValidOrder(n, o)
  {
    seq(n, k requires 0 <= k < n => k as nat)
  }

  /** A rearrangement of a valid order is a valid order. */
  lemma PermutedOrderValid(n: nat, o: seq<nat>, o': seq<nat>)
    requires ValidOrder(n, o) && multiset(o') == multiset(o)
    ensures ValidOrder(n, o') && |o'| == |o|
  {
    assert |multiset(o')| == |multiset(o)|;
    DistinctPermutation(o, o');
    forall k | 0 <= k < |o'|
      ensures o'[k] < n
    {
      assert o'[k] in multiset(o);
    }
  }

  /** A rearrangement lists the same positions. */
  lemma PermutedSameMembers(o: seq<nat>, o': seq<nat>)
    requires multiset(o') == multiset(o)
    ensures forall i :: i in o' <==> i in o
  {
    forall i
      ensures i in o' <==> i in o
    {
      assert i in o' <==> i in multiset(o');
      assert i in o <==> i in multiset(o);
    }
  }
}

=== FILE: shapes.dfy ===
/** The shapes the layout rules read and rewrite: a node's resolved kind,
    its lastChild role, its bounds, its "oryx-autolayout" property and its
    direct children; plus index lists into a container's child list. */
module Shapes {
  import opened Geometry
  import opened Seqs

  /** The stencil id of a node, resolved against its own namespace. */
  datatype Kind =
    | EventHandlers
    | FaultHandlers
    | CompensationHandler
    | TerminationHandler
    | Flow
    | Other

  /** A JavaScript property value, as far as the auto-layout test looks at it. */
  datatype PropValue =
    | Undefined
    | Null
    | Bool(b: bool)
    | Number(n: int)
    | Str(s: string)

  /** A diagram shape. `lastChild` is true when the stencil declares the
      lastChild role; `autolayout` is the "oryx-autolayout" property. */
  datatype Node = Node(
    kind: Kind,
    lastChild: bool,
    bounds: Rect,
    autolayout: PropValue,
    children: seq<Node>)

  /** The right edges of a list of shapes. */
  function RightEdges(cs: seq<Node>): (es: seq<int>)
    ensures |es| == |cs|
    ensures forall k :: 0 <= k < |cs| ==> es[k] == cs[k].bounds.lrx
  {
    seq(|cs|, k requires 0 <= k < |cs| => cs[k].bounds.lrx)
  }

  /** The bottom edges of a list of shapes. */
  function BottomEdges(cs: seq<Node>): (es: seq<int>)
    ensures |es| == |cs|
    ensures forall k :: 0 <= k < |cs| ==> es[k] == cs[k].bounds.lry
  {
    seq(|cs|, k requires 0 <= k < |cs| => cs[k].bounds.lry)
  }

  /** JavaScript truthiness. */
  predicate Truthy(v: PropValue) {
    match v
    case Undefined => false
    case Null => false
    case Bool(b) => b
    case Number(n) => n != 0
    case Str(s) => s != ""
  }

  /** `requiredAutoLayout`: an absent or null property enables layout,
      otherwise the property's truthiness decides. */
  function AutoLayoutRequired(n: Node): (r: bool)
    ensures !r <==> n.autolayout in {Bool(false), Number(0), Str("")}
  {
    if n.autolayout == Undefined || n.autolayout == Null then true
    else Truthy(n.autolayout)
  }

  /** The bounds of the children at the listed positions, in list order. */
  function Gather(cs: seq<Node>, o: seq<nat>): (rs: seq<Rect>)
    requires forall k :: 0 <= k < |o| ==> o[k] < |cs|
    ensures |rs| == |o|
    ensures forall k :: 0 <= k < |o| ==> rs[k] == cs[o[k]].bounds
  {
    seq(|o|, k requires 0 <= k < |o| => cs[o[k]].bounds)
  }

  /** Gives the child at position o[k] the bounds rs[k]; every other child and
      every other field is left alone. The child list keeps its order, as the
      in-place mutation of `bounds` does. */
  function Scatter(cs: seq<Node>, o: seq<nat>, rs: seq<Rect>): (r: seq<Node>)
    requires ValidOrder(|cs|, o) && |rs| == |o|
    ensures |r| == |cs|
    ensures forall k :: 0 <= k < |o| ==> r[o[k]] == cs[o[k]].(bounds := rs[k])
    ensures forall i :: 0 <= i < |cs| && i !in o ==> r[i] == cs[i]
    decreases |o|
  {
    if |o| == 0 then cs
    else
      var i := o[0];
      var cs' := cs[i := cs[i].(bounds := rs[0])];
      assert ValidOrder(|cs'|, o[1..]) by {
        forall a, b | 0 <= a < b < |o[1..]|
          ensures o[1..][a] != o[1..][b]
        {
          assert o[1..][a] == o[a + 1] && o[1..][b] == o[b + 1];
        }
      }
      var r := Scatter(cs', o[1..], rs[1..]);
      assert forall k :: 1 <= k < |o| ==> o[k] == o[1..][k - 1] && o[k] != i;
      assert i !in o[1..];
      r
  }

  /** Writing back the bounds a list already has changes nothing. */
  lemma ScatterGathered(cs: seq<Node>, o: seq<nat>)
    requires ValidOrder(|cs|, o)
    ensures Scatter(cs, o, Gather(cs, o)) == cs
  {
    var r := Scatter(cs, o, Gather(cs, o));
    forall i | 0 <= i < |cs|
      ensures r[i] == cs[i]
    {
      if i in o {
        var k :| 0 <= k < |o| && o[k] == i;
      }
    }
  }

  /** Reading back the bounds just written gives them back. */
  lemma GatherScattered(cs: seq<Node>, o: seq<nat>, rs: seq<Rect>)
    requires ValidOrder(|cs|, o) && |rs| == |o|
    ensures Gather(Scatter(cs, o, rs), o) == rs
  {
    var r := Scatter(cs, o, rs);
    assert forall k :: 0 <= k < |o| ==> r[o[k]].bounds == rs[k];
  }
}

=== FILE: sorting.dfy ===
/** A stable sort of a list of positions by integer keys, standing in for
    Prototype's `Enumerable.sortBy`, plus the facts about sorted orders the
    layout proofs use. The key of position `i` is `keys[i]`. None of the facts
    here depends on how equal keys are ordered. */
module Sorting {
  import opened Seqs

  /** The key of a position; positions past the end of `keys` never occur in
      a valid order and read as 0. */
  function KeyAt(keys: seq<int>, i: nat): int {
    if i < |keys| then keys[i] else 0
  }

  predicate SortedBy(s: seq<nat>, keys: seq<int>) {
    forall i, j :: 0 <= i < j < |s| ==> KeyAt(keys, s[i]) <= KeyAt(keys, s[j])
  }

  predicate StrictlySortedBy(s: seq<nat>, keys: seq<int>) {
    forall i, j :: 0 <= i < j < |s| ==> KeyAt(keys, s[i]) < KeyAt(keys, s[j])
  }

  /** Inserts `x` in front of the first element whose key is not smaller. */
  function Insert(x: nat, s: seq<nat>, keys: seq<int>): (r: seq<nat>)
    requires SortedBy(s, keys)
    ensures |r| == |s| + 1
    ensures SortedBy(r, keys)
    ensures multiset(r) == multiset(s) + multiset{x}
    ensures r[0] == x || (|s| > 0 && r[0] == s[0])
  {
    if |s| == 0 || KeyAt(keys, x) <= KeyAt(keys, s[0]) then [x] + s
    else
      var t := Insert(x, s[1..], keys);
      assert s == [s[0]] + s[1..];
      assert forall k :: 1 <= k < |s| ==> s[k] == s[1..][k - 1];
      assert forall k :: 0 <= k < |t| ==> KeyAt(keys, s[0]) <= KeyAt(keys, t[k]) by {
        forall k | 0 <= k < |t|
          ensures KeyAt(keys, s[0]) <= KeyAt(keys, t[k])
        {
          assert KeyAt(keys, t[0]) <= KeyAt(keys, t[k]) || k == 0;
        }
      }
      [s[0]] + t
  }

  /** Insertion sort: each element goes in front of the first later one whose
      key is not smaller, so elements with equal keys keep their relative order. */
  function SortBy(s: seq<nat>, keys: seq<int>): (r: seq<nat>)
    ensures |r| == |s|
    ensures SortedBy(r, keys)
    ensures multiset(r) == multiset(s)
  {
    if |s| == 0 then []
    else
      assert s == [s[0]] + s[1..];
      Insert(s[0], SortBy(s[1..], keys), keys)
  }

  /** Two positions with different keys come out in key order. */
  lemma SortTwo(x: nat, y: nat, keys: seq<int>)
    requires KeyAt(keys, x) != KeyAt(keys, y)
    ensures SortBy([x, y], keys) == if KeyAt(keys, x) < KeyAt(keys, y) then [x, y] else [y, x]
  {
    assert [x, y][1..] == [y];
    assert [y][1..] == [];
    assert SortBy([y], keys) == [y];
  }

  /** In a sorted list without repetitions, an element whose key is strictly
      larger than every other element's key is the last one. */
  lemma StrictMaximumIsLast(s: seq<nat>, keys: seq<int>, x: nat)
    requires SortedBy(s, keys) && Distinct(s)
    requires x in s
    requires forall y :: y in s && y != x ==> KeyAt(keys, y) < KeyAt(keys, x)
    ensures s[|s| - 1] == x
  {
    var p :| 0 <= p < |s| && s[p] == x;
    assert p == |s| - 1 || KeyAt(keys, s[p]) <= KeyAt(keys, s[|s| - 1]);
  }

  lemma SortedHeadsEqual(s: seq<nat>, t: seq<nat>, keys: seq<int>)
    requires SortedBy(s, keys) && StrictlySortedBy(t, keys)
    requires multiset(s) == multiset(t) && |s| > 0
    ensures |t| > 0 && s[0] == t[0]
  {
    assert s[0] in multiset(t) && t[0] in multiset(s);
    var m :| 0 <= m < |t| && t[m] == s[0];
    var n :| 0 <= n < |s| && s[n] == t[0];
    assert KeyAt(keys, s[0]) <= KeyAt(keys, s[n]);
  }

  lemma TailsPermuted(s: seq<nat>, t: seq<nat>)
    requires multiset(s) == multiset(t) && |s| > 0 && |t| > 0 && s[0] == t[0]
    ensures multiset(s[1..]) == multiset(t[1..])
  {
    assert s == [s[0]] + s[1..] && t == [t[0]] + t[1..];
    assert multiset(s[1..]) == multiset(s) - multiset{s[0]};
    assert multiset(t[1..]) == multiset(t) - multiset{t[0]};
  }

  /** Sorting puts an element whose key is strictly larger than every other
      element's key last. */
  lemma SortPutsStrictMaximumLast(s: seq<nat>, keys: seq<int>, x: nat)
    requires Distinct(s) && x in s
    requires forall y :: y in s && y != x ==> KeyAt(keys, y) < KeyAt(keys, x)
    ensures EndsWith(SortBy(s, keys), x)
  {
    var r := SortBy(s, keys);
    assert |multiset(r)| == |multiset(s)|;
    DistinctPermutation(s, r);
    PermutedSameMembers(s, r);
    StrictMaximumIsLast(r, keys, x);
  }

  /** A strictly sorted list is the only sorted arrangement of its elements. */
  lemma {:induction false} SortedUnique(s: seq<nat>, t: seq<nat>, keys: seq<int>)
    requires SortedBy(s, keys) && StrictlySortedBy(t, keys)
    requires multiset(s) == multiset(t)
    ensures s == t
    decreases |s|
  {
    assert |s| == |multiset(s)| == |multiset(t)| == |t|;
    if |s| > 0 {
      SortedHeadsEqual(s, t, keys);
      TailsPermuted(s, t);
      assert SortedBy(s[1..], keys) by {
        forall i, j | 0 <= i < j < |s[1..]|
          ensures KeyAt(keys, s[1..][i]) <= KeyAt(keys, s[1..][j])
        {
          assert s[1..][i] == s[i + 1] && s[1..][j] == s[j + 1];
        }
      }
      assert StrictlySortedBy(t[1..], keys) by {
        forall i, j | 0 <= i < j < |t[1..]|
          ensures KeyAt(keys, t[1..][i]) < KeyAt(keys, t[1..][j])
        {
          assert t[1..][i] == t[i + 1] && t[1..][j] == t[j + 1];
        }
      }
      SortedUnique(s[1..], t[1..], keys);
      assert s == [s[0]] + s[1..] && t == [t[0]] + t[1..];
    }
  }

  /** The key of the last position after sorting all positions, which is how
      the layout code reads off a maximum (`sortBy(...).last()`). */
  function LastKey(keys: seq<int>): (m: int)
    requires |keys| > 0
    ensures forall k :: 0 <= k < |keys| ==> keys[k] <= m
    ensures exists k :: 0 <= k < |keys| && m == keys[k]
  {
    var o := Indices(|keys|);
    var r := SortBy(o, keys);
    PermutedOrderValid(|keys|, o, r);
    PermutedSameMembers(o, r);
    assert forall k :: 0 <= k < |keys| ==> o[k] in r && KeyAt(keys, o[k]) == keys[k];
    KeyAt(keys, r[|r| - 1])
  }
}
